=== FILE: README.md ===
# parts-lu capacitor part numbers, modelled in Dafny

The library decodes manufacturer part numbers for SMD ceramic capacitors into a typed
record (`Capacitor`) and renders records and their value types back to text. This
project models its pure core and proves properties of the model:

- the EIA inch and IEC metric package-size tables and the conversions between them, in
  module `Parts`, together with the `SizeCode` capability (`Parts.IsSizeCode`);
- the displays of size codes, rated voltages and tolerances, each in a verbose and a
  compact ("alternate") style, and the display of heights, which has one style only, in
  module `Parts`;
- capacitance values, the decoder's error kinds, `strip_zeros_right` and the capacitance
  display, in module `CapacitorValues`;
- Murata's series names and dimension codes (`MurataCodes`) and Samsung's dimension codes
  (`Samsung`), each a size-code instance;
- the `Capacitor` record and its two displays, in module `Capacitors`;
- Murata's positional decoder with its field decoders, in module `Murata`;
- the vendor dispatcher behind `Capacitor::from_str`, in module `Dispatch`.

The decimal rendering of unsigned integers that Rust's `{}` performs is modelled once, in
`DecimalText.FromNat`, with its read-back `ValueOf`.

Rust's `{:#}` alternate flag is an explicit `Style` argument (`Verbose` or `Alternate`),
or an `infix` flag for the capacitance display. Enum variants whose Rust names start with
`_` are renamed with a letter instead: `M` for metric codes, `I` for inch codes, `D` for
Murata dimensions and `S` for Samsung dimensions. Their `Debug` names, which the displays
slice, are kept as string tables.

The model follows the code where it is surprising, and the proofs pin those behaviours
down:

- `"3R3"` decodes to `AttoFarads(33)`, and the display reads `AttoFarads` as thousandths
  of a picofarad, so it renders `0.0pF` (`Murata.CapacitanceCodeExamples`,
  `CapacitorValues.AttoFaradRendering`).
- 1050 pF renders `1.5nF`, like 1500 pF (`CapacitorValues.LeadingFractionZeroLost`).
- `Tolerance::AttoFarads(100, 100)` renders `±100pF` (`Parts.AttoFaradBandRendering`).
- Capacitance digits are `byte - '0'` without validation, so an `R` that is not the marker
  counts as 34 (`Murata.EarliestMarkerWins`).
- `Percent(b, a)` and `AttoFarads(b, a)` print `-a+b`: the second field follows the minus
  sign (`Parts.CustomBandRendering`).
- Height code `'3'` is `Height(0, 3)`, so the example part number `GRM033R61A224ME90#`
  has height `0.3mm` (`Murata.ExampleParse`).

## Model

| member | source | states |
|---|---|---|
| DecimalText.FromNat | src/parts/mod.rs:370-374 | Rust's `{}` of an unsigned integer: canonical digits (no leading zero) whose value is the number, one digit exactly below 10 |
| DecimalText.CanonicalRoundTrip | src/parts/mod.rs:370-374 | every canonical digit string is the rendering of the number it denotes, so `FromNat` is onto the canonical strings |
| Parts.MetricDebugName | src/parts/mod.rs:5-45 | the derived `Debug` name of every metric code is `_` followed by at least four digits |
| Parts.InchDebugName | src/parts/mod.rs:58-96 | the derived `Debug` name of every inch code is `_` followed by at least four digits |
| Parts.MetricDebugNameInjective | src/parts/mod.rs:5-45 | distinct metric codes have distinct `Debug` names |
| Parts.InchDebugNameInjective | src/parts/mod.rs:58-96 | distinct inch codes have distinct `Debug` names |
| Parts.InchOf | src/parts/mod.rs:109-152 | metric to inch; exactly 5664 and 5764 give 2225, and exactly 6332 and 6432 give 2512 |
| Parts.MetricOf | src/parts/mod.rs:154-195 | inch to metric; converting the result back to inch gives the input code |
| Parts.MetricOfInjective | src/parts/mod.rs:154-195 | distinct inch codes give distinct metric codes (both directions) |
| Parts.MetricRoundTrip | src/parts/mod.rs:109-195 | metric to inch to metric is the identity exactly when the code is neither 5664 nor 6432 |
| Parts.MetricRoundTripExceptions | src/parts/mod.rs:184-185 | 5664 comes back as 5764, and 6432 as 6332 |
| Parts.InchOfCollisions | src/parts/mod.rs:139-142 | two distinct metric codes share an inch code exactly for the pairs {5664, 5764} and {6332, 6432} |
| Parts.RenderMetric | src/parts/mod.rs:47-56 | the verbose display is all digits, and is the `Debug` name without its `_`; the alternate style appends " Metric" |
| Parts.RenderMetricInjective | src/parts/mod.rs:47-56 | in either style, two metric codes display alike exactly when they are equal |
| Parts.RenderInch | src/parts/mod.rs:98-107 | the verbose display is all digits, and is the `Debug` name without its `_`; the alternate style appends " Inch" |
| Parts.RenderInchInjective | src/parts/mod.rs:98-107 | in either style, two inch codes display alike exactly when they are equal |
| Parts.VoltageFieldsOf | src/parts/mod.rs:234-257 | the DC flag is false exactly for AC ratings; only DC_2V5 and DC_6V3 have a tenths digit |
| Parts.RenderVoltage | src/parts/mod.rs:231-272 | the text starts with a digit; it ends in 'C' exactly for AC ratings; otherwise it ends in 'V', except for a rating with a tenths digit in the alternate style, which ends in that digit |
| Parts.RenderVoltageFields | src/parts/mod.rs:258-270 | the same shape facts, stated on the destructured fields |
| Parts.WholeVoltageRendering | src/parts/mod.rs:258-263 | a rating without a tenths digit renders "<n>V", or "<n>VAC" for AC, in both styles |
| Parts.FractionalVoltageRendering | src/parts/mod.rs:264-269 | DC_2V5 renders "2.5V" and "2V5", DC_6V3 renders "6.3V" and "6V3" |
| Parts.VoltageStylesAgree | src/parts/mod.rs:258-270 | the two styles agree exactly on the ratings other than DC_2V5 and DC_6V3 |
| Parts.Voltage3150Rendering | src/parts/mod.rs:253-255 | DC_3kV15 and CustomDC(3150) both render "3150V" |
| Parts.ToleranceClass | src/parts/mod.rs:309-322 | the compact display is one of U, P, S, C, or empty exactly for P5, M5, Percent and AttoFarads |
| Parts.ToleranceBand | src/parts/mod.rs:323-351 | the verbose display starts with ± exactly for symmetric bands, and ends in % exactly for relative bands and in F otherwise |
| Parts.CustomBand | src/parts/mod.rs:333-349 | a custom band starts with ± exactly when both fields agree, and ends with its unit ("%" or "pF") |
| Parts.RenderTolerance | src/parts/mod.rs:307-354 | the compact style gives at most one character; the verbose style starts with ± exactly for symmetric bands |
| Parts.ToleranceClasses | src/parts/mod.rs:311-320 | PM05 and PM0pF1 give U; PM1, PM2, PM5 and PM0pF25 give P; PM10 and PM0pF5 give S; PM20 and PM1pF give C |
| Parts.CustomBandRendering | src/parts/mod.rs:333-349 | Percent(b, a) renders "±a%" when a = b and "-a+b%" otherwise; AttoFarads(b, a) likewise with "pF" |
| Parts.AttoFaradBandRendering | src/parts/mod.rs:344-346 | AttoFarads(100, 100) renders "±100pF" |
| Parts.RenderHeight | src/parts/mod.rs:368-376 | a height renders ending in "mm", with a point exactly when the fractional field is not zero |
| Parts.HeightTail | src/parts/mod.rs:370-374 | what follows the whole millimetres starts with a non-digit and has a point exactly for a non-zero fraction |
| Parts.HeightTailInjective | src/parts/mod.rs:370-374 | distinct fractional fields give distinct tails |
| Parts.RenderHeightInjective | src/parts/mod.rs:368-376 | two heights render alike exactly when they are equal |
| Parts.HeightRenderingExamples | src/parts/mod.rs:368-376 | Height(0, 125) renders "0.125mm", Height(0, 3) "0.3mm" and Height(2, 0) "2mm" |
| Parts.DielectricName | src/parts/mod.rs:378-397 | the derived `Debug` name of a dielectric has one to three characters |
| CapacitorValues.StripZerosRight | src/parts/capacitors/mod.rs:15-23 | the result is at most the input and is it, a tenth or a hundredth of it; a multiple of 100 loses two zeros, a value without a trailing zero is kept, and unless the input is a multiple of 1000 the result has no trailing zero |
| CapacitorValues.StripThreeDigitsReadBack | src/parts/capacitors/mod.rs:15-23 | a fraction from 100 to 999 is recovered from its stripped value by the number of digits |
| CapacitorValues.StripLosesLeadingZero | src/parts/capacitors/mod.rs:15-23 | a fraction below 100 and ten times it strip alike |
| CapacitorValues.FormatCapacitance | src/parts/capacitors/mod.rs:25-84 | in the verbose style, picofarads render with pF below 10^3, nF below 10^6 and uF from 10^6 up (both directions), and AttoFarads values render in pF with a point; in either style only NonStandard starts with a non-digit, and it renders "NonSTD" |
| CapacitorValues.PicoRendering | src/parts/capacitors/mod.rs:52-53 | below 1000 pF the value renders "<p>pF", or "<p>P" in the compact style |
| CapacitorValues.NanoRendering | src/parts/capacitors/mod.rs:54-65 | from 1 nF to 1 uF: "<w>nF" or "<w>N" for a zero remainder, else "<w>.<strip(f)>nF" or "<w>N<strip(f)>" |
| CapacitorValues.NanoSplit | src/parts/capacitors/mod.rs:54-65 | from 1 nF to 1 uF the text is the whole nanofarads followed by a tail that starts with a non-digit |
| CapacitorValues.ScaledTail | src/parts/capacitors/mod.rs:57-64 | the tail after the whole nanofarads starts with a non-digit |
| CapacitorValues.ScaledTailInjective | src/parts/capacitors/mod.rs:57-64 | zero or three-digit remainders give distinct tails |
| CapacitorValues.NanoRenderingInjective | src/parts/capacitors/mod.rs:54-65 | from 1 nF to 1 uF, values whose remainder is zero or has three digits render alike only when equal |
| CapacitorValues.MicroRendering | src/parts/capacitors/mod.rs:66-79 | from 1 uF up, with n the whole nanofarads: "<n/1000>uF" or "<n/1000>U" when n mod 1000 is zero, else "<n/1000>.<strip(n mod 1000)>uF" or "<n/1000>U<strip(n mod 1000)>" |
| CapacitorValues.MicroTruncation | src/parts/capacitors/mod.rs:66-79 | from 1 uF up, values that agree in whole nanofarads render alike |
| CapacitorValues.ExampleCapacitanceRendering | src/parts/capacitors/mod.rs:54-58 | 220000 pF renders "220nF" and "220N" |
| CapacitorValues.LeadingFractionZeroLost | src/parts/capacitors/mod.rs:55-63 | 1050 pF and 1500 pF both render "1.5nF" |
| CapacitorValues.AttoRendering | src/parts/capacitors/mod.rs:32-49 | AttoFarads(a) renders "0.<a/100>pF" or "0P<a/100>" below 1000, and "<a/1000>.<strip(a mod 1000)>pF" or "<a/1000>P<strip(a mod 1000)>" from 1000 up |
| CapacitorValues.AttoFaradRendering | src/parts/capacitors/mod.rs:32-39 | AttoFarads(33) renders "0.0pF" and "0P0"; AttoFarads(330) renders "0.3pF" |
| MurataCodes.SeriesName | src/parts/capacitors/murata.rs:5-23 | every series name has three characters |
| MurataCodes.SeriesFromStr | src/parts/capacitors/murata.rs:5-23 | a name is accepted only when it is the name of the series returned |
| MurataCodes.SeriesNameRoundTrip | src/parts/capacitors/murata.rs:5-23 | every series name reads back as its series |
| MurataCodes.SeriesFromStrExact | src/parts/capacitors/murata.rs:5-23 | a text is accepted exactly when it is one of the series names |
| MurataCodes.DimensionsCode | src/parts/capacitors/murata.rs:25-43 | every dimension code has two characters |
| MurataCodes.DimensionsFromStr | src/parts/capacitors/murata.rs:45-71 | an accepted text is the code of the dimension returned; anything else is WrongDimensionCode |
| MurataCodes.DimensionsCodeRoundTrip | src/parts/capacitors/murata.rs:48-69 | every dimension code reads back as its dimension |
| MurataCodes.DimensionsFromStrExact | src/parts/capacitors/murata.rs:48-69 | a text is accepted exactly when it is one of the 17 codes |
| MurataCodes.ToEia | src/parts/capacitors/murata.rs:76-97 | the 17 arms of `to_eia`; its properties are stated in `MurataCodes.ToEiaRoundTrip` and `MurataCodes.ToEiaInjective` |
| MurataCodes.ToMfCode | src/parts/capacitors/murata.rs:99-121 | a size found in reverse maps forward to the size looked up |
| MurataCodes.ToEiaRoundTrip | src/parts/capacitors/murata.rs:76-121 | every Murata dimension is found again from its EIA size |
| MurataCodes.ToEiaInjective | src/parts/capacitors/murata.rs:76-97 | distinct Murata dimensions give distinct EIA sizes (both directions) |
| MurataCodes.ToMfCodeNone | src/parts/capacitors/murata.rs:99-121 | the reverse lookup fails exactly on the EIA sizes no Murata dimension maps to |
| Parts.IsSizeCode | src/parts/mod.rs:197-202 | the `SizeCode` capability: forward then reverse is the identity on vendor codes, and a reverse lookup that succeeds maps forward to the size looked up |
| MurataCodes.MurataSizeCode | src/parts/capacitors/murata.rs:73-122 | the two lookups form a size-code instance: forward then reverse is the identity, and reverse is sound |
| Samsung.ToEia | src/parts/capacitors/samsung.rs:25-39 | the 10 arms of `to_eia`; its properties are stated in `Samsung.ToEiaRoundTrip` and `Samsung.ToEiaInjective` |
| Samsung.ToMfCode | src/parts/capacitors/samsung.rs:41-56 | a size found in reverse maps forward to the size looked up |
| Samsung.ToEiaRoundTrip | src/parts/capacitors/samsung.rs:25-56 | every Samsung dimension is found again from its EIA size |
| Samsung.ToEiaInjective | src/parts/capacitors/samsung.rs:25-39 | distinct Samsung dimensions give distinct EIA sizes (both directions) |
| Samsung.ToMfCodeNone | src/parts/capacitors/samsung.rs:41-56 | the reverse lookup fails exactly on the EIA sizes no Samsung dimension maps to |
| Samsung.SamsungSizeCode | src/parts/capacitors/samsung.rs:22-57 | the two lookups form a size-code instance |
| Capacitors.CompactText | src/parts/capacitors/mod.rs:116-123 | the compact display starts with C and ends with the dielectric's name |
| Capacitors.VerboseText | src/parts/capacitors/mod.rs:124-133 | the verbose display starts with "CAP " and ends with the height's "mm" |
| Capacitors.RenderCapacitor | src/parts/capacitors/mod.rs:114-136 | the style selects the shape: "CAP ...mm" verbose, "C...<dielectric>" compact |
| Capacitors.RenderIgnoresSeriesAndOther | src/parts/capacitors/mod.rs:114-136 | neither display depends on the series or on the undecoded tail |
| Capacitors.CompactIgnoresHeight | src/parts/capacitors/mod.rs:116-123 | the compact display does not depend on the height |
| Capacitors.VerboseShowsHeight | src/parts/capacitors/mod.rs:124-133 | records that differ only in height have equal verbose displays exactly when the heights are equal |
| Capacitors.VendorCodesDiffer | src/parts/capacitors/samsung.rs:30 | Samsung's code 05 is EIA 0402 while Murata's code 05 is EIA 0202 |
| Capacitors.ExampleVerboseRendering | src/parts/capacitors/mod.rs:124-133 | the example record renders "CAP 220nF±20% 10V X5R 0201(0603 Metric) Height=0.3mm" |
| Capacitors.ExampleCompactRendering | src/parts/capacitors/mod.rs:116-123 | the example record renders "C0201_220NC10VX5R" in the compact style |
| Murata.ParseHeightCode | src/parts/capacitors/murata.rs:124-145 | a rejected code gives WrongHeightCode; accepted heights are below 3 mm |
| Murata.HeightCodesAccepted | src/parts/capacitors/murata.rs:124-145 | a height code is accepted exactly when it is one of 1 to 9, A to E, M, Q and X |
| Murata.DigitHeightsIncrease | src/parts/capacitors/murata.rs:126-134 | the digit codes 1 to 9 are accepted and their heights grow with the digit |
| Murata.HeightCodeInjective | src/parts/capacitors/murata.rs:124-145 | distinct accepted height codes give distinct heights |
| Murata.HeightCodeExamples | src/parts/capacitors/murata.rs:126-138 | codes 1, 3 and D render as 0.125mm, 0.3mm and 2mm |
| Murata.ParseDielectric | src/parts/capacitors/murata.rs:147-170 | a rejected code gives WrongDielectricCode; accepted codes have two characters and never give Y5V |
| Murata.DielectricCodeRoundTrip | src/parts/capacitors/murata.rs:147-170 | every class but Y5V has a code that decodes to it, and B has both B1 and B3 |
| Murata.DielectricCodeReadBack | src/parts/capacitors/murata.rs:147-170 | a decoded class other than B determines its code |
| Murata.DielectricCodes | src/parts/capacitors/murata.rs:147-170 | two codes give the same class only when equal, or when they are B1 and B3 (class B) |
| Murata.ParseVoltage | src/parts/capacitors/murata.rs:172-199 | a rejected code gives WrongVoltageCode; accepted codes have two characters |
| Murata.VoltageAcCodes | src/parts/capacitors/murata.rs:192-195 | a code gives AC_250V exactly when it is E2, GB, GD or GF, and no other AC rating is produced |
| Murata.VoltageCustomCode | src/parts/capacitors/murata.rs:189-191 | a custom rating comes exactly from 3F, as CustomDC(3150); DC_3kV and DC_3kV15 are never produced |
| Murata.DcVoltageCodeRoundTrip | src/parts/capacitors/murata.rs:172-199 | every DC rating but 3 kV and 3.15 kV, and the custom 3150 V, has a code that decodes to it |
| Murata.DcVoltageCodeReadBack | src/parts/capacitors/murata.rs:172-199 | a decoded DC rating determines its code |
| Murata.VoltageDcCodes | src/parts/capacitors/murata.rs:172-199 | two codes give the same DC rating only when they are equal |
| Murata.ParseCapacitance | src/parts/capacitors/murata.rs:201-225 | the result is an error exactly for non-ASCII codes and for an R in the third position only; a leading or middle R gives AttoFarads and no R gives PicoFarads; values fit u16 and u64 |
| Murata.ParseCapacitanceLeadingMarker | src/parts/capacitors/murata.rs:202-213 | a leading R followed by any characters c1 c2 at or above '0' (an R included) gives AttoFarads((10·(c1 − '0') + (c2 − '0'))·10) for ASCII text, and the capacitance error otherwise |
| Murata.ParseCapacitanceMiddleMarker | src/parts/capacitors/murata.rs:202-216 | c0 R c2, with c0 not an R and both at or above '0' (c2 may be an R), gives AttoFarads(10·(c0 − '0') + (c2 − '0')) for ASCII text, and the capacitance error otherwise |
| Murata.ParseCapacitanceDigits | src/parts/capacitors/murata.rs:219-224 | three ASCII digits give the two-digit mantissa's value times ten to the third digit, in picofarads |
| Murata.CapacitanceCodeExamples | src/parts/capacitors/murata.rs:211-224 | 224 gives 220000 pF, R33 gives AttoFarads(330), 3R3 gives AttoFarads(33), 33R is WrongCapacitanceCode |
| Murata.EarliestMarkerWins | src/parts/capacitors/murata.rs:208-216 | the earliest R is the marker and a later R counts 34: RR5 gives AttoFarads(3450), 3RR gives AttoFarads(64) |
| Murata.ParseTolerance | src/parts/capacitors/murata.rs:227-253 | a code is rejected exactly when it is not one of B C D F G J K M W, or is D with a non-standard capacitance; D gives PM05 exactly for 10 pF and up, and AttoFarads(500, 500) for any AttoFarads value and below 10 pF |
| Murata.ToleranceIgnoresCapacitance | src/parts/capacitors/murata.rs:229-252 | every code other than D decodes the same for any capacitance |
| Murata.ToleranceDExamples | src/parts/capacitors/murata.rs:232-244 | D gives AttoFarads(500, 500) for AttoFarads and for 9 pF, PM05 for 10 pF, and an error for NonStandard |
| Murata.Parse | src/parts/capacitors/murata.rs:255-285 | UnknownSeries exactly for fewer than 3 characters or an unknown prefix; InsufficientData exactly for a known prefix and fewer than 14; on success, the series is the prefix's and `other` is the text from the 15th character |
| Murata.ParseFirstFailingField | src/parts/capacitors/murata.rs:263-268 | past the checks on length and series, each error comes exactly from the first field, in reading order, that fails to decode |
| Murata.ParseSuccess | src/parts/capacitors/murata.rs:263-284 | decoding succeeds exactly when every field does, and the record holds the decoded fields with the dimension converted to EIA |
| Murata.ParseTrailingText | src/parts/capacitors/murata.rs:255-285 | text appended to a part number of 14 or more characters goes to `other` and changes nothing else |
| Murata.ExampleParse | src/parts/capacitors/murata.rs:255-285 | GRM033R61A224ME90# decodes to GRM, 0201, Height(0, 3), X5R, DC_10V, 220000 pF, PM20 and "E90#" |
| Dispatch.FirstKnown | src/parts/capacitors/mod.rs:150-162 | when every decoder reports an unknown series the result is UnknownSeries; otherwise it is the first result that is not |
| Dispatch.FromStr | src/parts/capacitors/mod.rs:164-172 | the series is unknown exactly when the text is shorter than 3 or its prefix names no Murata series; a decoded record is Murata's and keeps the text from the 15th character |
| Dispatch.FromStrIsMurata | src/parts/capacitors/mod.rs:164-172 | reading a part number equals Murata's decoding, in every case |

## Left out

- `src/main.rs`: it prints the example part number's displays; the example is stated as
  lemmas (`Murata.ExampleParse`, `Capacitors.ExampleVerboseRendering`,
  `Capacitors.ExampleCompactRendering`) instead.
- Rust's `fmt::Formatter` and the `write!` error path: every display is a pure string
  function, and the alternate flag is an argument.
- `Debug` derives: only the names the displays use are modelled (size codes and
  dielectrics); the `Debug` output of records is not.
- The `strum` `EnumString` derive for the series enums is modelled as exact, case-sensitive
  equality with a variant name (`MurataCodes.SeriesFromStr`). Samsung's series parser is
  never called, so it is not modelled.
- Samsung part-number parsing: the repository has none, and the dispatcher tries only
  Murata.
- Machine integer widths are `nat`. The decoder's results are shown to fit their `u16`
  and `u64` fields (`CapacitorValues.Representable`). The `u8` fields of `Height` and
  `Percent`, the `u32` of `CustomDC` and `CustomAC`, and the `u64` fields of
  `Tolerance::AttoFarads` are not bounded.
- Murata.Parse: requires the first 14 characters to be ASCII. The source slices by byte
  offset, and a multi-byte character there can panic or shift the fields; byte-level UTF-8
  is not modelled. Text after the 14th character may be anything.
- Murata.Parse and Murata.ParseCapacitance: require that the capacitance digits cannot
  underflow (no character below '0') and that, without an 'R', the exponent is at most 9.
  The source panics there in a debug build, and in a release build the `u8` subtraction
  and the `u32` power wrap silently; these are the inputs on which both builds agree, so
  no validation is invented and the wrapped values are not modelled.
- Dispatch.FirstKnown: takes the decoders' results as a sequence, because the decoders are
  pure; Rust stops calling decoders after the first decisive one, which cannot be
  observed.
- Parts.DielectricName: states only the length of each name.

=== FILE: capacitor_values.dfy ===
/** Nominal capacitance values, the decoder's error kinds and the display of a capacitance
    (src/parts/capacitors/mod.rs). */
module CapacitorValues {
  import opened DecimalText

  /** A nominal capacitance. The display reads `AttoFarads(a)` as thousandths of a picofarad;
      the source stores it in a `u16` and `PicoFarads` in a `u64`. */
  datatype Capacitance = AttoFarads(atto: nat) | PicoFarads(pico: nat) | NonStandard

  /** The value fits the machine integer the source stores it in. */
  predicate Representable(c: Capacitance) {
    match c
    case AttoFarads(a) => a < 0x1_0000
    case PicoFarads(p) => p < 0x1_0000_0000_0000_0000
    case NonStandard => true
  }

  /** Why a part number was not decoded. */
  datatype Error =
      UnknownSeries
    | WrongDimensionCode
    | WrongHeightCode
    | WrongDielectricCode
    | WrongVoltageCode
    | WrongCapacitanceCode
    | WrongToleranceCode
    | InsufficientData

  /** Drops at most two trailing zeros of a fractional part: a multiple of 100 loses two,
      another multiple of 10 loses one. */
  function StripZerosRight(x: nat): (r: nat)
    ensures r <= x
    ensures r == x || r * 10 == x || r * 100 == x
    ensures x % 100 == 0 ==> r * 100 == x
    ensures x % 10 != 0 ==> r == x
    ensures x % 1000 != 0 ==> r % 10 != 0
  {
    if x % 100 == 0 then x / 100
    else if x % 10 == 0 then x / 10
    else x
  }

  /** On three-digit fractions nothing is lost: the fraction is recovered from the stripped
      value by its size (one digit: two zeros were dropped; two digits: one zero). */
  lemma StripThreeDigitsReadBack(x: nat)
    requires 100 <= x < 1000
    ensures var r := StripZerosRight(x);
      1 <= r < 1000 && x == (if r < 10 then r * 100 else if r < 100 then r * 10 else r)
  {
  }

  /** Below 100 a fraction and its tenfold strip to the same value: the leading zero of a
      fraction is not kept. */
  lemma StripLosesLeadingZero(x: nat)
    requires 1 <= x < 100
    ensures StripZerosRight(x) == StripZerosRight(10 * x)
  {
  }

  /** `<whole><letter><frac>` in the compact style, `<whole>.<frac><unit>` otherwise. */
  function Pointed(whole: nat, frac: nat, infix: bool, letter: string, unit: string): string {
    if infix then FromNat(whole) + letter + FromNat(frac) else FromNat(whole) + "." + FromNat(frac) + unit
  }

  /** A value in thousandths of the unit: the whole units, then the stripped fraction unless
      it is zero. */
  function Scaled(thousandths: nat, infix: bool, letter: string, unit: string): string {
    var whole, frac := thousandths / 1000, thousandths % 1000;
    if frac == 0 then FromNat(whole) + (if infix then letter else unit)
    else Pointed(whole, StripZerosRight(frac), infix, letter, unit)
  }

  /** Display of a capacitance; `infix` selects the compact style ("3P3", "4N7", "2U2")
      over the verbose one ("2.2uF"). Picofarads choose their scale by magnitude:
      below 10^3 pF, below 10^6 pF, or microfarads. */
  function FormatCapacitance(c: Capacitance, infix: bool): (s: string)
    ensures c.PicoFarads? && !infix ==>
      && |s| >= 3 && IsDigit(s[0]) && s[|s| - 1] == 'F'
      && (s[|s| - 2] == 'p' <==> c.pico < 1_000)
      && (s[|s| - 2] == 'n' <==> 1_000 <= c.pico < 1_000_000)
      && (s[|s| - 2] == 'u' <==> 1_000_000 <= c.pico)
    ensures c.AttoFarads? && !infix ==> EndsWith(s, "pF") && '.' in s
    ensures |s| >= 2 && (c.NonStandard? <==> !IsDigit(s[0]))
    ensures c.NonStandard? ==> s == "NonSTD"
  {
    match c
    case AttoFarads(a) =>
      if a < 1_000 then Pointed(0, a / 100, infix, "P", "pF")
      else Pointed(a / 1000, StripZerosRight(a % 1000), infix, "P", "pF")
    case PicoFarads(p) =>
      if p < 1_000 then FromNat(p) + (if infix then "P" else "pF")
      else if p < 1_000_000 then Scaled(p, infix, "N", "nF")
      else Scaled(p / 1000, infix, "U", "uF")
    case NonStandard => "NonSTD"
  }

  /** Below a nanofarad the picofarads are written out whole. */
  lemma PicoRendering(p: nat)
    requires p < 1_000
    ensures FormatCapacitance(PicoFarads(p), false) == FromNat(p) + "pF"
    ensures FormatCapacitance(PicoFarads(p), true) == FromNat(p) + "P"
  {
  }

  /** `AttoFarads(a)` is read as thousandths of a picofarad: below 1000 it is shown to one
      decimal, `a / 100`; from 1000 up as whole picofarads and the stripped remainder. */
  lemma AttoRendering(a: nat)
    ensures FormatCapacitance(AttoFarads(a), false) ==
      if a < 1_000 then "0." + FromNat(a / 100) + "pF"
      else FromNat(a / 1000) + "." + FromNat(StripZerosRight(a % 1000)) + "pF"
    ensures FormatCapacitance(AttoFarads(a), true) ==
      if a < 1_000 then "0P" + FromNat(a / 100)
      else FromNat(a / 1000) + "P" + FromNat(StripZerosRight(a % 1000))
  {
    assert FromNat(0) == "0";
  }

  /** From a nanofarad up to a microfarad: the whole nanofarads, then the stripped
      picofarad remainder unless it is zero. */
  lemma NanoRendering(p: nat)
    requires 1_000 <= p < 1_000_000
    ensures var w, f := p / 1000, p % 1000;
      && FormatCapacitance(PicoFarads(p), false) ==
           (if f == 0 then FromNat(w) + "nF" else FromNat(w) + "." + FromNat(StripZerosRight(f)) + "nF")
      && FormatCapacitance(PicoFarads(p), true) ==
           (if f == 0 then FromNat(w) + "N" else FromNat(w) + "N" + FromNat(StripZerosRight(f)))
  {
  }

  /** From a microfarad up: the value is cut to whole nanofarads n, then written as the
      whole microfarads and the stripped nanofarad remainder unless it is zero. */
  lemma MicroRendering(p: nat)
    requires 1_000_000 <= p
    ensures var n := p / 1000; var w, f := n / 1000, n % 1000;
      && FormatCapacitance(PicoFarads(p), false) ==
           (if f == 0 then FromNat(w) + "uF" else FromNat(w) + "." + FromNat(StripZerosRight(f)) + "uF")
      && FormatCapacitance(PicoFarads(p), true) ==
           (if f == 0 then FromNat(w) + "U" else FromNat(w) + "U" + FromNat(StripZerosRight(f)))
  {
  }

  /** From a microfarad up the value is first cut to whole nanofarads: values that differ
      only below a nanofarad render alike. */
  lemma MicroTruncation(p: nat, q: nat, infix: bool)
    requires 1_000_000 <= p && 1_000_000 <= q && p / 1000 == q / 1000
    ensures FormatCapacitance(PicoFarads(p), infix) == FormatCapacitance(PicoFarads(q), infix)
  {
  }

  /** The capacitance of the example part number, 220000 pF. */
  lemma ExampleCapacitanceRendering()
    ensures FormatCapacitance(PicoFarads(220_000), false) == "220nF"
    ensures FormatCapacitance(PicoFarads(220_000), true) == "220N"
  {
    FromNatStep(2, 2);
    FromNatStep(22, 0);
  }

  /** 1050 pF and 1500 pF both render as 1.5nF: the zero after the point is dropped. */
  lemma LeadingFractionZeroLost()
    ensures FormatCapacitance(PicoFarads(1_050), false) == "1.5nF"
    ensures FormatCapacitance(PicoFarads(1_500), false) == "1.5nF"
  {
    assert FromNat(1) == "1" && FromNat(5) == "5";
    assert StripZerosRight(50) == 5 && StripZerosRight(500) == 5;
  }

  /** `AttoFarads(a)` is read as thousandths of a picofarad and, below 1000, shown to one
      decimal, `a / 100`: 33 shows as 0.0pF, 330 as 0.3pF. */
  lemma AttoFaradRendering()
    ensures FormatCapacitance(AttoFarads(33), false) == "0.0pF"
    ensures FormatCapacitance(AttoFarads(33), true) == "0P0"
    ensures FormatCapacitance(AttoFarads(330), false) == "0.3pF"
  {
    assert FromNat(0) == "0" && FromNat(3) == "3";
  }

  /** A remainder that is zero or has three significant digits is recovered from the text:
      two such values between 1 nF and 1 uF render alike only when they are equal. */
  lemma {:induction false} NanoRenderingInjective(p: nat, q: nat, infix: bool)
    requires 1_000 <= p < 1_000_000 && 1_000 <= q < 1_000_000
    requires p % 1000 == 0 || 100 <= p % 1000
    requires q % 1000 == 0 || 100 <= q % 1000
    requires FormatCapacitance(PicoFarads(p), infix) == FormatCapacitance(PicoFarads(q), infix)
    ensures p == q
  {
    var tp := ScaledTail(p % 1000, infix);
    var tq := ScaledTail(q % 1000, infix);
    NanoSplit(p, infix);
    NanoSplit(q, infix);
    SplitAfterDigits(FromNat(p / 1000), tp, FromNat(q / 1000), tq);
    FromNatInjective(p / 1000, q / 1000);
    ScaledTailInjective(p % 1000, q % 1000, infix);
  }

  /** A rendering between 1 nF and 1 uF is the whole nanofarads followed by a tail that
      starts with a non-digit. */
  lemma NanoSplit(p: nat, infix: bool)
    requires 1_000 <= p < 1_000_000
    ensures FormatCapacitance(PicoFarads(p), infix) == FromNat(p / 1000) + ScaledTail(p % 1000, infix)
  {
  }

  /** What follows the whole nanofarads. */
  function ScaledTail(f: nat, infix: bool): (t: string)
    ensures |t| >= 1 && !IsDigit(t[0])
  {
    if f == 0 then (if infix then "N" else "nF")
    else if infix then "N" + FromNat(StripZerosRight(f)) else "." + FromNat(StripZerosRight(f)) + "nF"
  }

  lemma ScaledTailInjective(f: nat, g: nat, infix: bool)
    requires f == 0 || 100 <= f < 1000
    requires g == 0 || 100 <= g < 1000
    requires ScaledTail(f, infix) == ScaledTail(g, infix)
    ensures f == g
  {
    var t := ScaledTail(f, infix);
    if f != 0 && g != 0 {
      if infix {
        assert FromNat(StripZerosRight(f)) == t[1..] == FromNat(StripZerosRight(g));
      } else {
        assert FromNat(StripZerosRight(f)) == t[1..|t| - 2] == FromNat(StripZerosRight(g));
      }
      FromNatInjective(StripZerosRight(f), StripZerosRight(g));
      StripThreeDigitsReadBack(f);
      StripThreeDigitsReadBack(g);
    }
  }
}

=== FILE: capacitors.dfy ===
/** The decoded capacitor record and its display (src/parts/capacitors/mod.rs, lines 96-136). */
module Capacitors {
  import opened DecimalText
  import opened Parts
  import opened CapacitorValues
  import MurataCodes
  import Samsung

  /** The vendor series a part number belongs to. */
  datatype Series = SamsungSeries(samsung: Samsung.Series) | MurataSeries(murata: MurataCodes.Series)

  /** A decoded part number; `other` is the undecoded text after the known fields. */
  datatype Capacitor = Capacitor(
    series: Series,
    dimensions: EIAInchCode,
    maxHeight: Height,
    dielectric: Dielectric,
    voltage: RatedVoltage,
    capacitance: Capacitance,
    tolerance: Tolerance,
    other: string)

  /** The compact display: "C<inch>_<capacitance><class><voltage><dielectric>". */
  function CompactText(c: Capacitor): (s: string)
    ensures |s| >= 1 && s[0] == 'C' && EndsWith(s, DielectricName(c.dielectric))
  {
    var body := RenderInch(c.dimensions, Verbose) + "_" + FormatCapacitance(c.capacitance, true)
      + RenderTolerance(c.tolerance, Alternate) + RenderVoltage(c.voltage, Alternate);
    var name := DielectricName(c.dielectric);
    EndsWithPrefixed("C" + body, name, name);
    "C" + body + name
  }

  /** The verbose display: "CAP <capacitance><band> <voltage> <dielectric> <inch>(<metric>
      Metric) Height=<height>", the metric code being the one the inch code converts to. */
  function VerboseText(c: Capacitor): (s: string)
    ensures |s| >= 4 && s[..4] == "CAP " && EndsWith(s, "mm")
  {
    var body := VerboseFields(c);
    var height := RenderHeight(c.maxHeight);
    EndsWithPrefixed("CAP " + body, height, "mm");
    StartsWithPrefix("CAP ", body);
    PrefixKept("CAP " + body, height, 4);
    "CAP " + body + height
  }

  /** The verbose display between "CAP " and the height. */
  function VerboseFields(c: Capacitor): string {
    FormatCapacitance(c.capacitance, false) + RenderTolerance(c.tolerance, Verbose)
      + " " + RenderVoltage(c.voltage, Verbose) + " " + DielectricName(c.dielectric)
      + " " + RenderInch(c.dimensions, Verbose) + "(" + RenderMetric(MetricOf(c.dimensions), Alternate)
      + ") Height="
  }

  /** Display of a capacitor. Neither style shows the series or the undecoded tail; only the
      verbose one shows the height and the metric size. */
  function RenderCapacitor(c: Capacitor, style: Style): (s: string)
    ensures style == Verbose ==> |s| >= 4 && s[..4] == "CAP " && EndsWith(s, "mm")
    ensures style == Alternate ==> |s| >= 1 && s[0] == 'C' && EndsWith(s, DielectricName(c.dielectric))
  {
    if style == Alternate then CompactText(c) else VerboseText(c)
  }

  /** The display does not depend on the series or on the undecoded tail. */
  lemma RenderIgnoresSeriesAndOther(c: Capacitor, series: Series, other: string, style: Style)
    ensures RenderCapacitor(c.(series := series, other := other), style) == RenderCapacitor(c, style)
  {
  }

  /** The compact display does not show the height. */
  lemma CompactIgnoresHeight(c: Capacitor, h: Height)
    ensures RenderCapacitor(c.(maxHeight := h), Alternate) == RenderCapacitor(c, Alternate)
  {
  }

  /** The verbose display tells heights apart: two records that differ only in height render
      differently. */
  lemma VerboseShowsHeight(c: Capacitor, h: Height)
    ensures RenderCapacitor(c.(maxHeight := h), Verbose) == RenderCapacitor(c, Verbose) <==> h == c.maxHeight
  {
    var d := c.(maxHeight := h);
    if RenderCapacitor(d, Verbose) == RenderCapacitor(c, Verbose) {
      assert VerboseFields(d) == VerboseFields(c);
      CancelPrefix("CAP " + VerboseFields(c), RenderHeight(h), RenderHeight(c.maxHeight));
      RenderHeightInjective(h, c.maxHeight);
    }
  }

  /** The same two characters name different sizes at different vendors. */
  lemma VendorCodesDiffer()
    ensures Samsung.ToEia(Samsung.S05) == I0402
    ensures MurataCodes.ToEia(MurataCodes.D05) == I0202
  {
  }

  /** The record the example part number decodes to. */
  const ExampleCapacitor: Capacitor :=
    Capacitor(MurataSeries(MurataCodes.GRM), I0201, Height(0, 3), X5R, DC_10V, PicoFarads(220_000), PM20, "E90#")

  /** The verbose display of the example record. */
  lemma ExampleVerboseRendering()
    ensures RenderCapacitor(ExampleCapacitor, Verbose) ==
      "CAP 220nF" + [PlusMinus] + "20% 10V X5R 0201(0603 Metric) Height=0.3mm"
  {
    ExampleVerbosePieces();
    VerboseLiteral();
  }

  /** The compact display of the example record. */
  lemma ExampleCompactRendering()
    ensures RenderCapacitor(ExampleCapacitor, Alternate) == "C0201_220NC10VX5R"
  {
    ExampleCompactPieces();
    CompactLiteral();
  }

  lemma CompactLiteral()
    ensures "C" + ("0201" + "_" + "220N" + "C" + "10V") + "X5R" == "C0201_220NC10VX5R"
  {
  }

  /** The verbose display of the example record, in the pieces the display puts together. */
  lemma ExampleVerbosePieces()
    ensures RenderCapacitor(ExampleCapacitor, Verbose) ==
      "CAP " + ("220nF" + [PlusMinus] + "20%" + " " + "10V" + " " + "X5R" + " " + "0201" + "(" + "0603 Metric" + ") Height=") + "0.3mm"
  {
    ExampleCapacitanceRendering();
    ExampleSizeTexts();
    ExampleRatingTexts();
  }

  lemma VerboseLiteral()
    ensures "CAP " + ("220nF" + [PlusMinus] + "20%" + " " + "10V" + " " + "X5R" + " " + "0201" + "(" + "0603 Metric" + ") Height=") + "0.3mm"
      == "CAP 220nF" + [PlusMinus] + "20% 10V X5R 0201(0603 Metric) Height=0.3mm"
  {
  }

  /** The compact display of the example record, in the pieces the display puts together. */
  lemma ExampleCompactPieces()
    ensures RenderCapacitor(ExampleCapacitor, Alternate) == "C" + ("0201" + "_" + "220N" + "C" + "10V") + "X5R"
  {
    ExampleCapacitanceRendering();
    ExampleSizeTexts();
    ExampleRatingTexts();
  }

  lemma ExampleSizeTexts()
    ensures RenderInch(I0201, Verbose) == "0201"
    ensures RenderMetric(MetricOf(I0201), Alternate) == "0603 Metric"
  {
    assert MetricOf(I0201) == M0603;
  }

  lemma ExampleRatingTexts()
    ensures RenderTolerance(PM20, Verbose) == [PlusMinus] + "20%"
    ensures RenderTolerance(PM20, Alternate) == "C"
    ensures RenderVoltage(DC_10V, Verbose) == "10V" && RenderVoltage(DC_10V, Alternate) == "10V"
    ensures DielectricName(X5R) == "X5R"
    ensures RenderHeight(Height(0, 3)) == "0.3mm"
  {
    ExampleVoltageText();
    HeightRenderingExamples();
  }

  lemma ExampleVoltageText()
    ensures RenderVoltage(DC_10V, Verbose) == "10V" && RenderVoltage(DC_10V, Alternate) == "10V"
  {
    FromNatStep(1, 0);
    assert VoltageFieldsOf(DC_10V) == VoltageFields(10, 0, true);
  }
}

=== FILE: decimal_text.dfy ===
/** Decimal text of natural numbers, as Rust's `{}` writes an unsigned integer:
    most significant digit first, no sign, no leading zero. */
module DecimalText {

  predicate EndsWith(s: string, suffix: string) {
    |suffix| <= |s| && s[|s| - |suffix|..] == suffix
  }

  /** Text that ends with a suffix still does after more text is put in front of it. */
  lemma EndsWithPrefixed(prefix: string, s: string, suffix: string)
    requires EndsWith(s, suffix)
    ensures EndsWith(prefix + s, suffix)
  {
    assert (prefix + s)[|prefix + s| - |suffix|..] == s[|s| - |suffix|..];
  }

  /** Text keeps its prefix when more text is appended. */
  lemma StartsWithPrefix(prefix: string, s: string)
    ensures (prefix + s)[..|prefix|] == prefix
  {
  }

  /** Appending text leaves a prefix of the original in place. */
  lemma PrefixKept(s: string, t: string, n: nat)
    requires n <= |s|
    ensures (s + t)[..n] == s[..n]
  {
  }

  /** Equal texts with a common prefix have equal remainders. */
  lemma CancelPrefix(prefix: string, s: string, t: string)
    requires prefix + s == prefix + t
    ensures s == t
  {
    assert s == (prefix + s)[|prefix|..];
    assert t == (prefix + t)[|prefix|..];
  }

  /** Equal texts with a common suffix have equal beginnings. */
  lemma CancelSuffix(s: string, t: string, suffix: string)
    requires s + suffix == t + suffix
    ensures s == t
  {
    assert s == (s + suffix)[..|s|];
    assert t == (t + suffix)[..|t|];
  }

  /** Texts with the same first character and the same remainder are equal. */
  lemma SameHeadAndTail(s: string, t: string)
    requires |s| >= 1 && |t| >= 1 && s[0] == t[0] && s[1..] == t[1..]
    ensures s == t
  {
    assert s == [s[0]] + s[1..];
    assert t == [t[0]] + t[1..];
  }

  predicate IsDigit(c: char) {
    '0' <= c <= '9'
  }

  predicate AllDigits(s: string) {
    forall i :: 0 <= i < |s| ==> IsDigit(s[i])
  }

  /** The shape of every rendering of a number: one or more digits, no leading zero. */
  predicate Canonical(s: string) {
    |s| >= 1 && AllDigits(s) && (s[0] == '0' ==> |s| == 1)
  }

  function DigitChar(d: nat): (c: char)
    requires d < 10
    ensures IsDigit(c)
    ensures c as int - '0' as int == d
  {
    ('0' as int + d) as char
  }

  function DigitValue(c: char): (d: nat)
    requires IsDigit(c)
    ensures d < 10
    ensures DigitChar(d) == c
  {
    c as int - '0' as int
  }

  /** The number a string of decimal digits denotes. */
  function ValueOf(s: string): nat
    requires AllDigits(s)
  {
    if |s| == 0 then 0 else 10 * ValueOf(s[..|s| - 1]) + DigitValue(s[|s| - 1])
  }

  /** The decimal rendering of `n`; reading it back gives `n`. */
  function FromNat(n: nat): (s: string)
    ensures Canonical(s)
    ensures ValueOf(s) == n
    ensures |s| == 1 <==> n < 10
  {
    if n < 10 then [DigitChar(n)]
    else
      var s := FromNat(n / 10) + [DigitChar(n % 10)];
      assert s[..|s| - 1] == FromNat(n / 10);
      s
  }

  /** Appending a digit to a positive number appends its character to the rendering. */
  lemma FromNatStep(q: nat, d: nat)
    requires 1 <= q && d < 10
    ensures FromNat(10 * q + d) == FromNat(q) + [DigitChar(d)]
  {
  }

  lemma FromNatInjective(a: nat, b: nat)
    ensures FromNat(a) == FromNat(b) <==> a == b
  {
  }

  lemma {:induction false} ValueOfPositive(s: string)
    requires AllDigits(s) && |s| >= 1 && s[0] != '0'
    ensures ValueOf(s) >= 1
  {
    if |s| > 1 {
      ValueOfPositive(s[..|s| - 1]);
    }
  }

  /** Every canonical digit string is the rendering of the number it denotes. */
  lemma {:induction false} CanonicalRoundTrip(s: string)
    requires Canonical(s)
    ensures FromNat(ValueOf(s)) == s
  {
    if |s| > 1 {
      var p := s[..|s| - 1];
      ValueOfPositive(p);
      CanonicalRoundTrip(p);
      assert s == p + [s[|s| - 1]];
    }
  }

  /** Digit strings followed by a non-digit split at the same place: a rendered number
      can be recovered from the text that follows it. */
  lemma SplitAfterDigits(x: string, y: string, x': string, y': string)
    requires AllDigits(x) && AllDigits(x')
    requires |y| >= 1 && !IsDigit(y[0]) && |y'| >= 1 && !IsDigit(y'[0])
    requires x + y == x' + y'
    ensures x == x' && y == y'
  {
    FirstNonDigit(x, y);
    FirstNonDigit(x', y');
    assert x == (x + y)[..|x|];
    assert x' == (x' + y')[..|x'|];
    assert y == (x + y)[|x|..];
    assert y' == (x' + y')[|x'|..];
  }

  /** In `x + y`, position `|x|` is the first that is not a digit. */
  lemma FirstNonDigit(x: string, y: string)
    requires AllDigits(x) && |y| >= 1 && !IsDigit(y[0])
    ensures !IsDigit((x + y)[|x|])
    ensures forall i :: 0 <= i < |x| ==> IsDigit((x + y)[i])
  {
  }
}

=== FILE: dispatch.dfy ===
/** Reading a capacitor from a part number by trying each vendor's decoder in turn
    (src/parts/capacitors/mod.rs, lines 150-171). */
module Dispatch {
  import opened Outcome
  import opened CapacitorValues
  import opened Capacitors
  import Murata
  import MurataCodes

  /** `results[k]` is the first result that is not `UnknownSeries`. */
  predicate FirstDecisive(results: seq<Result<Capacitor, Error>>, k: int) {
    && 0 <= k < |results|
    && results[k] != Err(UnknownSeries)
    && forall i :: 0 <= i < k ==> results[i] == Err(UnknownSeries)
  }

  /** The outcome of trying decoders in order: the first that recognises the series
      decides, whether it succeeds or fails; when none does, the series is unknown. */
  function FirstKnown(results: seq<Result<Capacitor, Error>>): (r: Result<Capacitor, Error>)
    ensures (forall i :: 0 <= i < |results| ==> results[i] == Err(UnknownSeries)) ==> r == Err(UnknownSeries)
    ensures forall k :: FirstDecisive(results, k) ==> r == results[k]
  {
    if |results| == 0 then Err(UnknownSeries)
    else
      match results[0]
      case Ok(c) => Ok(c)
      case Err(e) =>
        if e == UnknownSeries then
          var r := FirstKnown(results[1..]);
          assert forall k :: FirstDecisive(results, k) ==> FirstDecisive(results[1..], k - 1);
          r
        else Err(e)
  }

  /** Reads a capacitor from a part number. Murata is the only vendor with a decoder. */
  function FromStr(s: string): (r: Result<Capacitor, Error>)
    requires Murata.ParseDefined(s)
    ensures r == Err(UnknownSeries) <==> |s| < 3 || MurataCodes.SeriesFromStr(s[..3]).None?
    ensures r.Ok? ==> |s| >= 14 && r.value.series.MurataSeries? && r.value.other == s[14..]
  {
    FirstKnown([Murata.Parse(s)])
  }

  /** With a single vendor, reading a part number is exactly Murata's decoding: success,
      any other error and an unknown series alike. */
  lemma FromStrIsMurata(s: string)
    requires Murata.ParseDefined(s)
    ensures FromStr(s) == Murata.Parse(s)
  {
  }
}

=== FILE: murata.dfy ===
/** Murata's positional part-number decoder (src/parts/capacitors/murata.rs, lines 124-285). */
module Murata {
  import opened Outcome
  import opened DecimalText
  import opened Parts
  import opened CapacitorValues
  import MurataCodes
  import opened Capacitors

  /** Decodes the height character; anything but the listed codes is `WrongHeightCode`. */
  function ParseHeightCode(code: char): (r: Result<Height, Error>)
    ensures r.Err? ==> r.error == WrongHeightCode
    ensures r.Ok? ==> r.value.decimal <= 2 && r.value.fractional < 1000
  {
    match code
    case '1' => Ok(Height(0, 125))
    case '2' => Ok(Height(0, 2))
    case '3' => Ok(Height(0, 3))
    case '4' => Ok(Height(0, 4))
    case '5' => Ok(Height(0, 5))
    case '6' => Ok(Height(0, 6))
    case '7' => Ok(Height(0, 7))
    case '8' => Ok(Height(0, 8))
    case '9' => Ok(Height(0, 85))
    case 'A' => Ok(Height(1, 0))
    case 'B' => Ok(Height(1, 25))
    case 'C' => Ok(Height(1, 6))
    case 'D' => Ok(Height(2, 0))
    case 'E' => Ok(Height(2, 5))
    case 'M' => Ok(Height(1, 15))
    case 'Q' => Ok(Height(1, 5))
    case 'X' => Ok(Height(0, 0))
    case _ => Err(WrongHeightCode)
  }

  /** Decodes the two dielectric characters; anything but the listed codes is
      `WrongDielectricCode`. */
  function ParseDielectric(code: string): (r: Result<Dielectric, Error>)
    ensures r.Err? ==> r.error == WrongDielectricCode
    ensures r.Ok? ==> |code| == 2 && r.value != Y5V
  {
    if code == "5C" then Ok(C0G)
    else if code == "R7" then Ok(X7R)
    else if code == "R6" then Ok(X5R)
    else if code == "C8" then Ok(X6S)
    else if code == "1X" then Ok(SL)
    else if code == "2C" then Ok(CH)
    else if code == "3C" then Ok(CJ)
    else if code == "3U" then Ok(UJ)
    else if code == "4C" then Ok(CK)
    else if code == "5G" then Ok(X8G)
    else if code == "7U" then Ok(U2J)
    else if code == "B1" then Ok(B)
    else if code == "B3" then Ok(B)
    else if code == "C7" then Ok(X7S)
    else if code == "D7" then Ok(X7T)
    else if code == "D8" then Ok(X6T)
    else if code == "E7" then Ok(X7U)
    else if code == "R1" then Ok(R)
    else Err(WrongDielectricCode)
  }

  /** Decodes the two rated-voltage characters; anything but the listed codes is
      `WrongVoltageCode`. */
  function ParseVoltage(code: string): (r: Result<RatedVoltage, Error>)
    ensures r.Err? ==> r.error == WrongVoltageCode
    ensures r.Ok? ==> |code| == 2
  {
    if code == "0E" then Ok(DC_2V5)
    else if code == "0G" then Ok(DC_4V)
    else if code == "0J" then Ok(DC_6V3)
    else if code == "1A" then Ok(DC_10V)
    else if code == "1C" then Ok(DC_16V)
    else if code == "1E" then Ok(DC_25V)
    else if code == "1H" then Ok(DC_50V)
    else if code == "1J" then Ok(DC_63V)
    else if code == "2A" then Ok(DC_100V)
    else if code == "2D" then Ok(DC_200V)
    else if code == "2E" then Ok(DC_250V)
    else if code == "2W" then Ok(DC_450V)
    else if code == "2H" then Ok(DC_500V)
    else if code == "2J" then Ok(DC_630V)
    else if code == "3A" then Ok(DC_1kV)
    else if code == "3D" then Ok(DC_2kV)
    else if code == "3F" then Ok(CustomDC(3150))
    else if code == "E2" then Ok(AC_250V)
    else if code == "GB" then Ok(AC_250V)
    else if code == "GD" then Ok(AC_250V)
    else if code == "GF" then Ok(AC_250V)
    else if code == "YA" then Ok(DC_35V)
    else Err(WrongVoltageCode)
  }

  predicate IsAscii(s: string) {
    forall i :: 0 <= i < |s| ==> s[i] < '\U{0080}'
  }

  /** The value the source takes for a character as a digit: its distance above '0', with
      no check that it is a digit ('R' counts as 34). */
  function DigitOf(c: char): nat
    requires c >= '0'
  {
    c as int - '0' as int
  }

  function Pow10(n: nat): (p: nat)
    ensures p >= 1
  {
    if n == 0 then 1 else 10 * Pow10(n - 1)
  }

  lemma {:induction false} Pow10Monotone(a: nat, b: nat)
    requires a <= b
    ensures Pow10(a) <= Pow10(b)
  {
    if a < b {
      Pow10Monotone(a, b - 1);
    }
  }

  lemma Pow10Bound(n: nat)
    requires n <= 9
    ensures Pow10(n) <= 1_000_000_000
  {
    Pow10Monotone(n, 9);
    assert Pow10(9) == 1_000_000_000;
  }

  lemma ProductBound(m: nat, p: nat)
    requires m < 1000 && p <= 1_000_000_000
    ensures m * p < 0x1_0000_0000_0000_0000
  {
    assert m * p <= 1000 * p;
  }

  /** The capacitance codes whose digit arithmetic cannot fail: at least three characters,
      none of the first three below '0' (each is turned into a digit by an unsigned byte
      subtraction), and, when none of them is the 'R' marker, a third at most '9' (ten to
      the power of it must fit 32 bits). */
  predicate CapacitanceArithmeticDefined(code: string) {
    && |code| >= 3
    && code[0] >= '0' && code[1] >= '0' && code[2] >= '0'
    && (code[0] != 'R' && code[1] != 'R' && code[2] != 'R' ==> code[2] <= '9')
  }

  /** Decodes the three capacitance characters. An 'R' marks the decimal point: leading, it
      gives `AttoFarads` from the two digits after it, times ten; in the middle, it gives
      `AttoFarads` from the digits around it; only at the end, it is an error. Without a
      marker the code is a two-digit mantissa and a power of ten in picofarads. */
  function ParseCapacitance(code: string): (r: Result<Capacitance, Error>)
    requires IsAscii(code) ==> CapacitanceArithmeticDefined(code)
    ensures r.Err? ==> r.error == WrongCapacitanceCode
    ensures r.Err? <==> !IsAscii(code) || (code[0] != 'R' && code[1] != 'R' && code[2] == 'R')
    ensures r.Ok? ==> Representable(r.value) && !r.value.NonStandard?
    ensures r.Ok? ==> (r.value.AttoFarads? <==> code[0] == 'R' || code[1] == 'R')
  {
    if !IsAscii(code) then Err(WrongCapacitanceCode)
    else
      var d0, d1, d2 := DigitOf(code[0]), DigitOf(code[1]), DigitOf(code[2]);
      assert d0 < 80 && d1 < 80 && d2 < 80 by {
        assert code[0] < '\U{0080}' && code[1] < '\U{0080}' && code[2] < '\U{0080}';
      }
      if code[0] == 'R' then Ok(Capacitance.AttoFarads((d1 * 10 + d2) * 10))
      else if code[1] == 'R' then Ok(Capacitance.AttoFarads(d0 * 10 + d2))
      else if code[2] == 'R' then Err(WrongCapacitanceCode)
      else
        Pow10Bound(d2);
        ProductBound(d0 * 10 + d1, Pow10(d2));
        Ok(PicoFarads((d0 * 10 + d1) * Pow10(d2)))
  }

  /** Decodes the tolerance character. 'D' depends on the capacitance already decoded:
      half a picofarad for small values, half a percent from 10 pF up, and an error for a
      non-standard value. */
  function ParseTolerance(capacitance: Capacitance, code: char): (r: Result<Tolerance, Error>)
    ensures r.Err? ==> r.error == WrongToleranceCode
    ensures r.Err? <==> code !in "BCDFGJKMW" || (code == 'D' && capacitance.NonStandard?)
    ensures code == 'D' && r.Ok? ==>
      (r.value == PM05 <==> capacitance.PicoFarads? && capacitance.pico >= 10)
    ensures code == 'D' && (capacitance.AttoFarads? || (capacitance.PicoFarads? && capacitance.pico < 10)) ==>
      r == Ok(Tolerance.AttoFarads(500, 500))
  {
    match code
    case 'B' => Ok(Tolerance.AttoFarads(100, 100))
    case 'C' => Ok(Tolerance.AttoFarads(250, 250))
    case 'D' =>
      if capacitance.AttoFarads? then Ok(Tolerance.AttoFarads(500, 500))
      else if capacitance.PicoFarads? then
        (if capacitance.pico < 10 then Ok(Tolerance.AttoFarads(500, 500)) else Ok(PM05))
      else Err(WrongToleranceCode)
    case 'F' => Ok(PM1)
    case 'G' => Ok(PM2)
    case 'J' => Ok(PM5)
    case 'K' => Ok(PM10)
    case 'M' => Ok(PM20)
    case 'W' => Ok(Tolerance.AttoFarads(50, 50))
    case _ => Err(WrongToleranceCode)
  }

  /** Every tolerance code other than 'D' decodes the same whatever the capacitance. */
  lemma ToleranceIgnoresCapacitance(a: Capacitance, b: Capacitance, code: char)
    requires code != 'D'
    ensures ParseTolerance(a, code) == ParseTolerance(b, code)
  {
  }

  /** The part numbers the decoder handles without failing: the first 14 characters are
      ASCII (the source slices by byte offset), and when every field before the capacitance
      decodes, the capacitance code's arithmetic is defined. */
  predicate ParseDefined(s: string) {
    && (forall i :: 0 <= i < |s| && i < 14 ==> s[i] < '\U{0080}')
    && (|s| >= 14 && LeadingFieldsDecode(s) ==> CapacitanceArithmeticDefined(s[10..13]))
  }

  /** Series, dimensions, height, dielectric and voltage all decode. */
  predicate LeadingFieldsDecode(s: string)
    requires |s| >= 14
  {
    && MurataCodes.SeriesFromStr(s[..3]).Some?
    && MurataCodes.DimensionsFromStr(s[3..5]).Ok?
    && ParseHeightCode(s[5]).Ok?
    && ParseDielectric(s[6..8]).Ok?
    && ParseVoltage(s[8..10]).Ok?
  }

  /** Decodes a Murata part number: series name, then fixed-width fields read left to
      right, each with its own error; the text after the 14th character is kept as is. */
  function Parse(s: string): (r: Result<Capacitor, Error>)
    requires ParseDefined(s)
    ensures r == Err(UnknownSeries) <==> |s| < 3 || MurataCodes.SeriesFromStr(s[..3]).None?
    ensures r == Err(InsufficientData) <==> 3 <= |s| < 14 && MurataCodes.SeriesFromStr(s[..3]).Some?
    ensures r.Ok? ==> |s| >= 14 && r.value.other == s[14..]
    ensures r.Ok? ==> r.value.series == MurataSeries(MurataCodes.SeriesFromStr(s[..3]).value)
  {
    if |s| < 3 then Err(UnknownSeries)
    else
      var series := MurataCodes.SeriesFromStr(s[..3]);
      if series.None? then Err(UnknownSeries)
      else if |s| < 14 then Err(InsufficientData)
      else
        var dimensions :- MurataCodes.DimensionsFromStr(s[3..5]);
        var maxHeight :- ParseHeightCode(s[5]);
        var dielectric :- ParseDielectric(s[6..8]);
        var voltage :- ParseVoltage(s[8..10]);
        assert IsAscii(s[10..13]) ==> CapacitanceArithmeticDefined(s[10..13]);
        var capacitance :- ParseCapacitance(s[10..13]);
        var tolerance :- ParseTolerance(capacitance, s[13]);
        var other := if |s| >= 14 then s[14..] else "";
        Ok(Capacitor(MurataSeries(series.value), MurataCodes.ToEia(dimensions), maxHeight, dielectric,
          voltage, capacitance, tolerance, other))
  }

  /** Once the series is known and the input is long enough, the first field that fails to
      decode, in reading order, determines the error. */
  lemma ParseFirstFailingField(s: string)
    requires ParseDefined(s) && |s| >= 14 && MurataCodes.SeriesFromStr(s[..3]).Some?
    ensures var r := Parse(s);
      var dims := MurataCodes.DimensionsFromStr(s[3..5]);
      var height := ParseHeightCode(s[5]);
      var dielectric := ParseDielectric(s[6..8]);
      var voltage := ParseVoltage(s[8..10]);
      && (r == Err(WrongDimensionCode) <==> dims.Err?)
      && (r == Err(WrongHeightCode) <==> dims.Ok? && height.Err?)
      && (r == Err(WrongDielectricCode) <==> dims.Ok? && height.Ok? && dielectric.Err?)
      && (r == Err(WrongVoltageCode) <==> dims.Ok? && height.Ok? && dielectric.Ok? && voltage.Err?)
      && (r == Err(WrongCapacitanceCode) <==>
            LeadingFieldsDecode(s) && ParseCapacitance(s[10..13]).Err?)
      && (r == Err(WrongToleranceCode) <==>
            LeadingFieldsDecode(s) && ParseCapacitance(s[10..13]).Ok?
            && ParseTolerance(ParseCapacitance(s[10..13]).value, s[13]).Err?)
  {
  }

  /** A part number decodes exactly when every field does, and the record holds the decoded
      fields, the dimension code converted to its EIA size. */
  lemma ParseSuccess(s: string)
    requires ParseDefined(s) && |s| >= 14 && LeadingFieldsDecode(s)
    ensures var capacitance := ParseCapacitance(s[10..13]);
      && (Parse(s).Ok? <==> capacitance.Ok? && ParseTolerance(capacitance.value, s[13]).Ok?)
      && (Parse(s).Ok? ==>
            var c := Parse(s).value;
            && c.dimensions == MurataCodes.ToEia(MurataCodes.DimensionsFromStr(s[3..5]).value)
            && c.maxHeight == ParseHeightCode(s[5]).value
            && c.dielectric == ParseDielectric(s[6..8]).value
            && c.voltage == ParseVoltage(s[8..10]).value
            && c.capacitance == capacitance.value
            && c.tolerance == ParseTolerance(capacitance.value, s[13]).value)
  {
  }

  /** Only the first 14 characters are decoded: text appended to a part number that long
      ends up in `other` and changes nothing else, including the error. */
  lemma ParseTrailingText(s: string, t: string)
    requires ParseDefined(s) && |s| >= 14
    ensures ParseDefined(s + t)
    ensures Parse(s + t) == match Parse(s)
      case Ok(c) => Ok(c.(other := c.other + t))
      case Err(e) => Err(e)
  {
    var st := s + t;
    assert st[..3] == s[..3] && st[3..5] == s[3..5] && st[5] == s[5] && st[6..8] == s[6..8];
    assert st[8..10] == s[8..10] && st[10..13] == s[10..13] && st[13] == s[13];
    assert st[14..] == s[14..] + t;
  }

  /** A code of three decimal digits is a two-digit mantissa times ten to the third digit,
      in picofarads. */
  lemma ParseCapacitanceDigits(code: string)
    requires |code| >= 3 && AllDigits(code[..3])
    ensures ParseCapacitance(code) ==
      if IsAscii(code) then Ok(PicoFarads(ValueOf(code[..2]) * Pow10(DigitValue(code[2])))) else Err(WrongCapacitanceCode)
  {
    var m, m1 := code[..2], code[..1];
    assert m1[..0] == [];
    assert ValueOf(m1) == DigitValue(code[0]);
    assert m[..1] == m1 && m[1] == code[1];
    assert ValueOf(m) == 10 * ValueOf(m1) + DigitValue(code[1]);
  }

  /** A leading 'R' is the marker whatever follows it: the next two characters, each read
      as its distance above '0' with no check that it is a digit, are tenths and hundredths
      of a picofarad, stored in `AttoFarads` times ten. */
  lemma ParseCapacitanceLeadingMarker(code: string)
    requires |code| >= 3 && code[0] == 'R' && code[1] >= '0' && code[2] >= '0'
    ensures ParseCapacitance(code) ==
      if IsAscii(code) then Ok(Capacitance.AttoFarads((10 * DigitOf(code[1]) + DigitOf(code[2])) * 10))
      else Err(WrongCapacitanceCode)
  {
  }

  /** An 'R' in the middle, after a first character that is not one, is the marker: the
      characters around it, each read as its distance above '0', make one two-digit number
      stored in `AttoFarads` unscaled. */
  lemma ParseCapacitanceMiddleMarker(code: string)
    requires |code| >= 3 && code[0] != 'R' && code[1] == 'R' && code[0] >= '0' && code[2] >= '0'
    ensures ParseCapacitance(code) ==
      if IsAscii(code) then Ok(Capacitance.AttoFarads(10 * DigitOf(code[0]) + DigitOf(code[2])))
      else Err(WrongCapacitanceCode)
  {
  }

  lemma CapacitanceCodeExamples()
    ensures ParseCapacitance("224") == Ok(PicoFarads(220_000))
    ensures ParseCapacitance("R33") == Ok(Capacitance.AttoFarads(330))
    ensures ParseCapacitance("3R3") == Ok(Capacitance.AttoFarads(33))
    ensures ParseCapacitance("33R") == Err(WrongCapacitanceCode)
  {
    assert Pow10(4) == 10_000;
  }

  /** The earliest 'R' is the marker; an 'R' elsewhere is read as a digit worth 34. */
  lemma EarliestMarkerWins()
    ensures ParseCapacitance("RR5") == Ok(Capacitance.AttoFarads(3450))
    ensures ParseCapacitance("3RR") == Ok(Capacitance.AttoFarads(64))
  {
  }

  /** 'D' on each kind of capacitance. */
  lemma ToleranceDExamples()
    ensures ParseTolerance(Capacitance.AttoFarads(33), 'D') == Ok(Tolerance.AttoFarads(500, 500))
    ensures ParseTolerance(PicoFarads(9), 'D') == Ok(Tolerance.AttoFarads(500, 500))
    ensures ParseTolerance(PicoFarads(10), 'D') == Ok(PM05)
    ensures ParseTolerance(NonStandard, 'D') == Err(WrongToleranceCode)
  {
  }

  /** A height in thousandths of a millimetre, reading the fractional field as the digits
      written after the point. */
  function HeightThousandths(h: Height): nat
    requires h.fractional < 1000
  {
    h.decimal * 1000 + (if h.fractional < 10 then h.fractional * 100
      else if h.fractional < 100 then h.fractional * 10 else h.fractional)
  }

  /** The digit height codes grow with the digit. */
  lemma DigitHeightsIncrease(a: char, b: char)
    requires '1' <= a < b <= '9'
    ensures ParseHeightCode(a).Ok? && ParseHeightCode(b).Ok?
    ensures HeightThousandths(ParseHeightCode(a).value) < HeightThousandths(ParseHeightCode(b).value)
  {
  }

  /** The height codes are exactly the nine digits 1 to 9 and the letters A to E, M, Q
      and X. */
  lemma HeightCodesAccepted(code: char)
    ensures ParseHeightCode(code).Ok? <==> code in "123456789ABCDEMQX"
  {
  }

  /** Distinct height codes denote distinct heights. */
  lemma HeightCodeInjective(a: char, b: char)
    requires ParseHeightCode(a).Ok? && ParseHeightCode(a) == ParseHeightCode(b)
    ensures a == b
  {
  }

  lemma HeightCodeExamples()
    ensures RenderHeight(ParseHeightCode('1').value) == "0.125mm"
    ensures RenderHeight(ParseHeightCode('3').value) == "0.3mm"
    ensures RenderHeight(ParseHeightCode('D').value) == "2mm"
  {
    assert ParseHeightCode('1') == Ok(Height(0, 125));
    assert ParseHeightCode('3') == Ok(Height(0, 3));
    assert ParseHeightCode('D') == Ok(Height(2, 0));
    HeightRenderingExamples();
  }

  /** The one code of each dielectric class the decoder produces; for B, the first of its
      two codes. */
  function DielectricCode(d: Dielectric): string {
    match d
    case B => "B1"
    case C0G => "5C"
    case X7R => "R7"
    case X5R => "R6"
    case X6S => "C8"
    case SL => "1X"
    case CH => "2C"
    case CJ => "3C"
    case UJ => "3U"
    case CK => "4C"
    case X8G => "5G"
    case U2J => "7U"
    case X7S => "C7"
    case X7T => "D7"
    case X6T => "D8"
    case X7U => "E7"
    case R => "R1"
    case _ => ""
  }

  /** A decoded dielectric class other than B determines the code it came from. */
  lemma DielectricCodeReadBack(x: string)
    requires ParseDielectric(x).Ok? && ParseDielectric(x).value != B
    ensures x == DielectricCode(ParseDielectric(x).value)
  {
  }

  /** Every dielectric class but Y5V has a code that decodes to it; B has a second one. */
  lemma DielectricCodeRoundTrip(d: Dielectric)
    requires d != Y5V
    ensures ParseDielectric(DielectricCode(d)) == Ok(d)
    ensures d == B ==> ParseDielectric("B3") == Ok(B)
  {
  }

  /** Two dielectric codes name class B; otherwise distinct codes name distinct classes. */
  lemma DielectricCodes(x: string, y: string)
    requires ParseDielectric(x).Ok? && ParseDielectric(x) == ParseDielectric(y)
    ensures x == y || (ParseDielectric(x).value == B && {x, y} == {"B1", "B3"})
  {
    if ParseDielectric(x).value != B {
      DielectricCodeReadBack(x);
      DielectricCodeReadBack(y);
    }
  }

  /** Four codes name the 250 V AC rating and no code names any other AC rating. */
  lemma VoltageAcCodes(code: string)
    ensures ParseVoltage(code) == Ok(AC_250V) <==> code in {"E2", "GB", "GD", "GF"}
    ensures ParseVoltage(code).Ok? && IsAC(ParseVoltage(code).value) ==> ParseVoltage(code).value == AC_250V
  {
  }

  /** "3F" is the one custom rating, 3150 V DC, and the standard 3 kV and 3.15 kV ratings are
      never produced. */
  lemma VoltageCustomCode(code: string)
    ensures ParseVoltage(code).Ok? && ParseVoltage(code).value.CustomDC? <==> code == "3F"
    ensures ParseVoltage("3F") == Ok(CustomDC(3150))
    ensures ParseVoltage(code) != Ok(DC_3kV) && ParseVoltage(code) != Ok(DC_3kV15)
  {
  }

  /** The one code of each DC rating the decoder produces. */
  function DcVoltageCode(v: RatedVoltage): string {
    match v
    case DC_2V5 => "0E"
    case DC_4V => "0G"
    case DC_6V3 => "0J"
    case DC_10V => "1A"
    case DC_16V => "1C"
    case DC_25V => "1E"
    case DC_50V => "1H"
    case DC_63V => "1J"
    case DC_100V => "2A"
    case DC_200V => "2D"
    case DC_250V => "2E"
    case DC_450V => "2W"
    case DC_500V => "2H"
    case DC_630V => "2J"
    case DC_1kV => "3A"
    case DC_2kV => "3D"
    case CustomDC(_) => "3F"
    case DC_35V => "YA"
    case _ => ""
  }

  /** A decoded DC rating determines the code it came from. */
  lemma DcVoltageCodeReadBack(x: string)
    requires ParseVoltage(x).Ok? && !IsAC(ParseVoltage(x).value)
    ensures x == DcVoltageCode(ParseVoltage(x).value)
  {
  }

  /** Every DC rating the decoder produces has a code that decodes to it: all standard DC
      ratings but 3 kV and 3.15 kV, and the custom 3150 V. */
  lemma DcVoltageCodeRoundTrip(v: RatedVoltage)
    requires !IsAC(v) && v != DC_3kV && v != DC_3kV15 && (v.CustomDC? ==> v.dcVolts == 3150)
    ensures ParseVoltage(DcVoltageCode(v)) == Ok(v)
  {
  }

  /** Distinct codes name distinct DC ratings. */
  lemma VoltageDcCodes(x: string, y: string)
    requires ParseVoltage(x).Ok? && !IsAC(ParseVoltage(x).value) && ParseVoltage(x) == ParseVoltage(y)
    ensures x == y
  {
    DcVoltageCodeReadBack(x);
    DcVoltageCodeReadBack(y);
  }

  /** The part number printed by the example program. */
  lemma ExampleParse()
    ensures ParseDefined(ExamplePartNumber)
    ensures Parse(ExamplePartNumber) ==
      Ok(Capacitor(MurataSeries(MurataCodes.GRM), I0201, Height(0, 3), X5R, DC_10V, PicoFarads(220_000), PM20, "E90#"))
  {
    ExampleFields();
    ParseSuccess(ExamplePartNumber);
  }

  const ExamplePartNumber: string := "GRM033R61A224ME90#"

  /** Each field of the example part number on its own. */
  lemma ExampleFields()
    ensures ParseDefined(ExamplePartNumber) && |ExamplePartNumber| >= 14 && LeadingFieldsDecode(ExamplePartNumber)
    ensures MurataCodes.SeriesFromStr(ExamplePartNumber[..3]) == Some(MurataCodes.GRM)
    ensures MurataCodes.ToEia(MurataCodes.DimensionsFromStr(ExamplePartNumber[3..5]).value) == I0201
    ensures ParseHeightCode(ExamplePartNumber[5]) == Ok(Height(0, 3))
    ensures ParseDielectric(ExamplePartNumber[6..8]) == Ok(X5R)
    ensures ParseVoltage(ExamplePartNumber[8..10]) == Ok(DC_10V)
    ensures ParseCapacitance(ExamplePartNumber[10..13]) == Ok(PicoFarads(220_000))
    ensures ParseTolerance(PicoFarads(220_000), ExamplePartNumber[13]) == Ok(PM20)
    ensures ExamplePartNumber[14..] == "E90#"
  {
    ExampleSlices();
    ExampleSeriesAndSize();
    ExampleRatings();
    CapacitanceCodeExamples();
  }

  lemma ExampleSlices()
    ensures var s := ExamplePartNumber;
      && |s| == 18
      && s[..3] == "GRM" && s[3..5] == "03" && s[5] == '3' && s[6..8] == "R6" && s[8..10] == "1A"
      && s[10..13] == "224" && s[13] == 'M' && s[14..] == "E90#"
      && forall i :: 0 <= i < |s| ==> s[i] < '\U{0080}'
  {
  }

  lemma ExampleSeriesAndSize()
    ensures MurataCodes.SeriesFromStr("GRM") == Some(MurataCodes.GRM)
    ensures MurataCodes.DimensionsFromStr("03") == Ok(MurataCodes.D03)
    ensures MurataCodes.ToEia(MurataCodes.D03) == I0201
  {
  }

  lemma ExampleRatings()
    ensures ParseHeightCode('3') == Ok(Height(0, 3))
    ensures ParseDielectric("R6") == Ok(X5R)
    ensures ParseVoltage("1A") == Ok(DC_10V)
    ensures ParseTolerance(PicoFarads(220_000), 'M') == Ok(PM20)
  {
  }
}

=== FILE: murata_codes.dfy ===
/** Murata's series names and two-character dimension codes (src/parts/capacitors/murata.rs,
    lines 5-122). */
module MurataCodes {
  import opened Outcome
  import opened Parts
  import opened CapacitorValues

  /** The Murata series a part number can start with. */
  datatype Series =
      GA2 | GA3 | GJM | GMA | GMD | GQM | GR3 | GR4 | GRJ | GRM | KR3 | KRM | LLA | LLL | LLM | LLR

  /** The name a series is written as in a part number. */
  function SeriesName(s: Series): (name: string)
    ensures |name| == 3
  {
    match s
    case GA2 => "GA2"
    case GA3 => "GA3"
    case GJM => "GJM"
    case GMA => "GMA"
    case GMD => "GMD"
    case GQM => "GQM"
    case GR3 => "GR3"
    case GR4 => "GR4"
    case GRJ => "GRJ"
    case GRM => "GRM"
    case KR3 => "KR3"
    case KRM => "KRM"
    case LLA => "LLA"
    case LLL => "LLL"
    case LLM => "LLM"
    case LLR => "LLR"
  }

  /** Reading a series name: exact, case-sensitive match against the listed names. */
  function SeriesFromStr(s: string): (r: Option<Series>)
    ensures r.Some? ==> SeriesName(r.value) == s
  {
    if s == "GA2" then Some(GA2)
    else if s == "GA3" then Some(GA3)
    else if s == "GJM" then Some(GJM)
    else if s == "GMA" then Some(GMA)
    else if s == "GMD" then Some(GMD)
    else if s == "GQM" then Some(GQM)
    else if s == "GR3" then Some(GR3)
    else if s == "GR4" then Some(GR4)
    else if s == "GRJ" then Some(GRJ)
    else if s == "GRM" then Some(GRM)
    else if s == "KR3" then Some(KR3)
    else if s == "KRM" then Some(KRM)
    else if s == "LLA" then Some(LLA)
    else if s == "LLL" then Some(LLL)
    else if s == "LLM" then Some(LLM)
    else if s == "LLR" then Some(LLR)
    else None
  }

  /** Every series name reads back as its series, so exactly the listed names are accepted. */
  lemma SeriesNameRoundTrip(x: Series)
    ensures SeriesFromStr(SeriesName(x)) == Some(x)
  {
  }

  lemma SeriesFromStrExact(s: string)
    ensures SeriesFromStr(s).Some? <==> exists x :: SeriesName(x) == s
  {
    if x :| SeriesName(x) == s {
      SeriesNameRoundTrip(x);
    }
  }

  /** Murata's case-size codes, named after the two characters that select them. */
  datatype Dimensions =
      D01 | D02 | D0D | D03 | D05 | D08 | D1U | D15 | D18 | D21 | D22 | D31 | D32 | D42 | D43 | D52 | D55

  /** The two characters a dimension code is written as. */
  function DimensionsCode(d: Dimensions): (code: string)
    ensures |code| == 2
  {
    match d
    case D01 => "01"
    case D02 => "02"
    case D0D => "0D"
    case D03 => "03"
    case D05 => "05"
    case D08 => "08"
    case D1U => "1U"
    case D15 => "15"
    case D18 => "18"
    case D21 => "21"
    case D22 => "22"
    case D31 => "31"
    case D32 => "32"
    case D42 => "42"
    case D43 => "43"
    case D52 => "52"
    case D55 => "55"
  }

  /** Reading a dimension code; anything but the listed codes is `WrongDimensionCode`. */
  function DimensionsFromStr(s: string): (r: Result<Dimensions, Error>)
    ensures r.Ok? ==> DimensionsCode(r.value) == s
    ensures r.Err? ==> r.error == WrongDimensionCode
  {
    if s == "01" then Ok(D01)
    else if s == "02" then Ok(D02)
    else if s == "0D" then Ok(D0D)
    else if s == "03" then Ok(D03)
    else if s == "05" then Ok(D05)
    else if s == "08" then Ok(D08)
    else if s == "1U" then Ok(D1U)
    else if s == "15" then Ok(D15)
    else if s == "18" then Ok(D18)
    else if s == "21" then Ok(D21)
    else if s == "22" then Ok(D22)
    else if s == "31" then Ok(D31)
    else if s == "32" then Ok(D32)
    else if s == "42" then Ok(D42)
    else if s == "43" then Ok(D43)
    else if s == "52" then Ok(D52)
    else if s == "55" then Ok(D55)
    else Err(WrongDimensionCode)
  }

  /** Every code reads back as its dimension. */
  lemma DimensionsCodeRoundTrip(d: Dimensions)
    ensures DimensionsFromStr(DimensionsCode(d)) == Ok(d)
  {
  }

  /** Exactly the listed codes are accepted. */
  lemma DimensionsFromStrExact(s: string)
    ensures DimensionsFromStr(s).Ok? <==> exists d :: DimensionsCode(d) == s
  {
    if d :| DimensionsCode(d) == s {
      DimensionsCodeRoundTrip(d);
    }
  }

  /** The EIA size a Murata dimension code denotes. */
  function ToEia(d: Dimensions): (e: EIAInchCode)
  {
    match d
    case D01 => I008004
    case D02 => I01005
    case D0D => I015015
    case D03 => I0201
    case D05 => I0202
    case D08 => I0303
    case D1U => I02404
    case D15 => I0402
    case D18 => I0603
    case D21 => I0805
    case D22 => I1111
    case D31 => I1206
    case D32 => I1210
    case D42 => I1808
    case D43 => I1812
    case D52 => I2211
    case D55 => I2220
  }

  /** The Murata dimension code for an EIA size, when Murata makes that size. */
  function ToMfCode(e: EIAInchCode): (r: Option<Dimensions>)
    ensures r.Some? ==> ToEia(r.value) == e
  {
    match e
    case I008004 => Some(D01)
    case I01005 => Some(D02)
    case I015015 => Some(D0D)
    case I0201 => Some(D03)
    case I0202 => Some(D05)
    case I0303 => Some(D08)
    case I02404 => Some(D1U)
    case I0402 => Some(D15)
    case I0603 => Some(D18)
    case I0805 => Some(D21)
    case I1111 => Some(D22)
    case I1206 => Some(D31)
    case I1210 => Some(D32)
    case I1808 => Some(D42)
    case I1812 => Some(D43)
    case I2211 => Some(D52)
    case I2220 => Some(D55)
    case _ => None
  }

  /** Every Murata size is found again from its EIA size. */
  lemma ToEiaRoundTrip(d: Dimensions)
    ensures ToMfCode(ToEia(d)) == Some(d)
  {
  }

  /** Distinct Murata codes denote distinct EIA sizes. */
  lemma ToEiaInjective(a: Dimensions, b: Dimensions)
    ensures ToEia(a) == ToEia(b) <==> a == b
  {
    if ToEia(a) == ToEia(b) {
      ToEiaRoundTrip(a);
      ToEiaRoundTrip(b);
    }
  }

  /** The reverse lookup fails exactly on the EIA sizes Murata does not make. */
  lemma ToMfCodeNone(e: EIAInchCode)
    ensures ToMfCode(e).None? <==> forall d :: ToEia(d) != e
  {
    if ToMfCode(e).None? {
      forall d ensures ToEia(d) != e {
        ToEiaRoundTrip(d);
      }
    }
  }

  /** Murata's dimension codes provide the size-code capability. */
  lemma MurataSizeCode()
    ensures IsSizeCode(ToEia, ToMfCode)
  {
    forall d ensures ToMfCode(ToEia(d)) == Some(d) {
      ToEiaRoundTrip(d);
    }
  }
}

=== FILE: outcome.dfy ===
/** Optional values and fallible results, usable with `:-`. */
module Outcome {

  datatype Option<+T> = None | Some(value: T)

  datatype Result<+T, +E> = Ok(value: T) | Err(error: E) {

    predicate IsFailure() {
      Err?
    }

    function PropagateFailure<U>(): Result<U, E>
      requires Err?
    {
      Err(error)
    }

    function Extract(): T
      requires Ok?
    {
      value
    }
  }
}

=== FILE: parts.dfy ===
/** Package-size codes and the value types shared by every capacitor decoder, with their
    verbose and compact text renderings (src/parts/mod.rs). */
module Parts {
  import opened DecimalText
  import opened Outcome

  /** Rust's `{}` versus `{:#}`: the verbose rendering or the compact ("alternate") one. */
  datatype Style = Verbose | Alternate

  /** IEC metric package codes (tenths of a millimetre); `M0201` is the source's `_0201`. */
  datatype IECMetricCode =
      M0201 | M03015 | M0402 | M0404 | M0505 | M0603 | M0610 | M0805 | M0808 | M1005 | M1310
    | M1608 | M2012 | M2520 | M2828 | M3216 | M3225 | M3625 | M3838 | M4516 | M4520 | M4532
    | M4564 | M5025 | M5050 | M5664 | M5728 | M5750 | M5764 | M6332 | M6432 | M6450 | M7450
    | M8484 | M9210 | M100100 | M140127 | M203153

  /** EIA inch package codes (hundredths of an inch); `I0201` is the source's `_0201`. */
  datatype EIAInchCode =
      I008004 | I009005 | I01005 | I015015 | I0201 | I0202 | I02404 | I0302 | I0303 | I0402
    | I0504 | I0603 | I0805 | I1008 | I1111 | I1206 | I1210 | I1410 | I1515 | I1806 | I1808
    | I1812 | I1825 | I2010 | I2020 | I2211 | I2220 | I2225 | I2512 | I2520 | I2920 | I3333
    | I3640 | I4040 | I5550 | I8060

  /** A number that tells the size codes' `Debug` names apart: their length and the first
      four characters after the `_`, read as digits. A proof device with no counterpart in
      the library: comparing these numbers is much cheaper for the verifier than comparing
      the names pairwise. */
  function NameKey(name: string): int
    requires |name| >= 5
  {
    |name| * 10000 + 1000 * (name[1] as int - '0' as int) + 100 * (name[2] as int - '0' as int)
      + 10 * (name[3] as int - '0' as int) + (name[4] as int - '0' as int)
  }

  /** The derived `Debug` name of a metric code: the variant name, leading `_` included. */
  function MetricDebugName(m: IECMetricCode): (name: string)
    ensures |name| >= 5 && name[0] == '_' && AllDigits(name[1..])
  {
    match m
    case M0201 => "_0201"
    case M03015 => "_03015"
    case M0402 => "_0402"
    case M0404 => "_0404"
    case M0505 => "_0505"
    case M0603 => "_0603"
    case M0610 => "_0610"
    case M0805 => "_0805"
    case M0808 => "_0808"
    case M1005 => "_1005"
    case M1310 => "_1310"
    case M1608 => "_1608"
    case M2012 => "_2012"
    case M2520 => "_2520"
    case M2828 => "_2828"
    case M3216 => "_3216"
    case M3225 => "_3225"
    case M3625 => "_3625"
    case M3838 => "_3838"
    case M4516 => "_4516"
    case M4520 => "_4520"
    case M4532 => "_4532"
    case M4564 => "_4564"
    case M5025 => "_5025"
    case M5050 => "_5050"
    case M5664 => "_5664"
    case M5728 => "_5728"
    case M5750 => "_5750"
    case M5764 => "_5764"
    case M6332 => "_6332"
    case M6432 => "_6432"
    case M6450 => "_6450"
    case M7450 => "_7450"
    case M8484 => "_8484"
    case M9210 => "_9210"
    case M100100 => "_100100"
    case M140127 => "_140127"
    case M203153 => "_203153"
  }

  /** The derived `Debug` name of an inch code: the variant name, leading `_` included. */
  function InchDebugName(e: EIAInchCode): (name: string)
    ensures |name| >= 5 && name[0] == '_' && AllDigits(name[1..])
  {
    match e
    case I008004 => "_008004"
    case I009005 => "_009005"
    case I01005 => "_01005"
    case I015015 => "_015015"
    case I0201 => "_0201"
    case I0202 => "_0202"
    case I02404 => "_02404"
    case I0302 => "_0302"
    case I0303 => "_0303"
    case I0402 => "_0402"
    case I0504 => "_0504"
    case I0603 => "_0603"
    case I0805 => "_0805"
    case I1008 => "_1008"
    case I1111 => "_1111"
    case I1206 => "_1206"
    case I1210 => "_1210"
    case I1410 => "_1410"
    case I1515 => "_1515"
    case I1806 => "_1806"
    case I1808 => "_1808"
    case I1812 => "_1812"
    case I1825 => "_1825"
    case I2010 => "_2010"
    case I2020 => "_2020"
    case I2211 => "_2211"
    case I2220 => "_2220"
    case I2225 => "_2225"
    case I2512 => "_2512"
    case I2520 => "_2520"
    case I2920 => "_2920"
    case I3333 => "_3333"
    case I3640 => "_3640"
    case I4040 => "_4040"
    case I5550 => "_5550"
    case I8060 => "_8060"
  }

  /** `From<IECMetricCode> for EIAInchCode`. Total but not injective: two pairs of metric
      codes share an inch code. */
  function InchOf(m: IECMetricCode): (e: EIAInchCode)
    ensures e == I2225 <==> m == M5664 || m == M5764
    ensures e == I2512 <==> m == M6332 || m == M6432
  {
    match m
    case M0201 => I008004
    case M03015 => I009005
    case M0402 => I01005
    case M0404 => I015015
    case M0505 => I0202
    case M0603 => I0201
    case M0610 => I02404
    case M0805 => I0302
    case M0808 => I0303
    case M1005 => I0402
    case M1310 => I0504
    case M1608 => I0603
    case M2012 => I0805
    case M2520 => I1008
    case M2828 => I1111
    case M3216 => I1206
    case M3225 => I1210
    case M3625 => I1410
    case M3838 => I1515
    case M4516 => I1806
    case M4520 => I1808
    case M4532 => I1812
    case M4564 => I1825
    case M5025 => I2010
    case M5050 => I2020
    case M5728 => I2211
    case M5750 => I2220
    case M5664 => I2225
    case M5764 => I2225
    case M6332 => I2512
    case M6432 => I2512
    case M6450 => I2520
    case M7450 => I2920
    case M8484 => I3333
    case M9210 => I3640
    case M100100 => I4040
    case M140127 => I5550
    case M203153 => I8060
  }

  /** `From<EIAInchCode> for IECMetricCode`. Of each colliding pair it picks one metric code
      (`M5764`, `M6332`); converting back to inches always gives the code it started from. */
  function MetricOf(e: EIAInchCode): (m: IECMetricCode)
    ensures InchOf(m) == e
  {
    match e
    case I008004 => M0201
    case I009005 => M03015
    case I01005 => M0402
    case I015015 => M0404
    case I0201 => M0603
    case I0202 => M0505
    case I02404 => M0610
    case I0302 => M0805
    case I0303 => M0808
    case I0402 => M1005
    case I0504 => M1310
    case I0603 => M1608
    case I0805 => M2012
    case I1008 => M2520
    case I1111 => M2828
    case I1206 => M3216
    case I1210 => M3225
    case I1410 => M3625
    case I1515 => M3838
    case I1806 => M4516
    case I1808 => M4520
    case I1812 => M4532
    case I1825 => M4564
    case I2010 => M5025
    case I2020 => M5050
    case I2211 => M5728
    case I2220 => M5750
    case I2225 => M5764
    case I2512 => M6332
    case I2520 => M6450
    case I2920 => M7450
    case I3333 => M8484
    case I3640 => M9210
    case I4040 => M100100
    case I5550 => M140127
    case I8060 => M203153
  }

  /** The inch-to-metric table loses nothing: distinct inch codes have distinct metric codes. */
  lemma MetricOfInjective(a: EIAInchCode, b: EIAInchCode)
    ensures MetricOf(a) == MetricOf(b) <==> a == b
  {
  }

  /** Metric to inch and back is the identity except on the two codes the inch-to-metric
      table does not choose. */
  lemma MetricRoundTrip(m: IECMetricCode)
    ensures MetricOf(InchOf(m)) == m <==> m != M5664 && m != M6432
  {
    MetricRoundTripExceptions();
    if m != M5664 && m != M6432 {
      if m.M0201? || m.M03015? || m.M0402? || m.M0404? || m.M0505? || m.M0603? || m.M0610?
        || m.M0805? || m.M0808? || m.M1005? || m.M1310? || m.M1608? {
        MetricRoundTripPart1(m);
      } else if m.M2012? || m.M2520? || m.M2828? || m.M3216? || m.M3225? || m.M3625? || m.M3838?
        || m.M4516? {
        MetricRoundTripPart2(m);
      } else if m.M4520? || m.M4532? || m.M4564? || m.M5025? || m.M5050? || m.M5728? {
        MetricRoundTripPart3(m);
      } else if m.M5750? || m.M5764? || m.M6332? || m.M6450? || m.M7450? {
        MetricRoundTripPart4(m);
      } else {
        MetricRoundTripPart5(m);
      }
    }
  }

  /** The round trip on the metric codes 0201 to 1608. */
  lemma MetricRoundTripPart1(m: IECMetricCode)
    requires
      || m.M0201? || m.M03015? || m.M0402? || m.M0404? || m.M0505? || m.M0603? || m.M0610?
      || m.M0805? || m.M0808? || m.M1005? || m.M1310? || m.M1608?
    ensures MetricOf(InchOf(m)) == m
  {
  }

  /** The round trip on the metric codes 2012 to 4516. */
  lemma MetricRoundTripPart2(m: IECMetricCode)
    requires
      || m.M2012? || m.M2520? || m.M2828? || m.M3216? || m.M3225? || m.M3625? || m.M3838?
      || m.M4516?
    ensures MetricOf(InchOf(m)) == m
  {
  }

  /** The round trip on the metric codes 4520 to 5728. */
  lemma MetricRoundTripPart3(m: IECMetricCode)
    requires
      || m.M4520? || m.M4532? || m.M4564? || m.M5025? || m.M5050? || m.M5728?
    ensures MetricOf(InchOf(m)) == m
  {
  }

  /** The round trip on the metric codes 5750 to 7450. */
  lemma MetricRoundTripPart4(m: IECMetricCode)
    requires
      || m.M5750? || m.M5764? || m.M6332? || m.M6450? || m.M7450?
    ensures MetricOf(InchOf(m)) == m
  {
  }

  /** The round trip on the metric codes 8484 to 203153. */
  lemma MetricRoundTripPart5(m: IECMetricCode)
    requires
      || m.M8484? || m.M9210? || m.M100100? || m.M140127? || m.M203153?
    ensures MetricOf(InchOf(m)) == m
  {
  }

  /** The two codes the inch-to-metric table does not choose come back as their partners. */
  lemma MetricRoundTripExceptions()
    ensures MetricOf(InchOf(M5664)) == M5764
    ensures MetricOf(InchOf(M6432)) == M6332
  {
  }

  /** Exactly two pairs of metric codes collide in the metric-to-inch table. */
  lemma InchOfCollisions(a: IECMetricCode, b: IECMetricCode)
    ensures a != b && InchOf(a) == InchOf(b) <==>
      || (a == M5664 && b == M5764) || (a == M5764 && b == M5664)
      || (a == M6332 && b == M6432) || (a == M6432 && b == M6332)
  {
    if a != b && InchOf(a) == InchOf(b) {
      assert MetricOf(InchOf(a)) == MetricOf(InchOf(b));
      MetricRoundTrip(a);
      MetricRoundTrip(b);
    }
  }

  /** Display of a metric code: its `Debug` name without the leading `_`; the alternate style
      appends " Metric". */
  function RenderMetric(m: IECMetricCode, style: Style): (s: string)
    ensures style == Verbose ==> "_" + s == MetricDebugName(m)
    ensures style == Alternate ==> s == MetricDebugName(m)[1..] + " Metric"
    ensures style == Verbose ==> |s| >= 1 && AllDigits(s)
  {
    var d := MetricDebugName(m);
    if style == Alternate then d[1..] + " Metric" else d[1..]
  }

  /** The `NameKey` of each metric code's `Debug` name, a proof device for
      `MetricDebugNameInjective`; `MetricNameKey` checks it against the names. */
  function MetricKey(m: IECMetricCode): nat {
    match m
    case M0201 => 50201
    case M03015 => 60301
    case M0402 => 50402
    case M0404 => 50404
    case M0505 => 50505
    case M0603 => 50603
    case M0610 => 50610
    case M0805 => 50805
    case M0808 => 50808
    case M1005 => 51005
    case M1310 => 51310
    case M1608 => 51608
    case M2012 => 52012
    case M2520 => 52520
    case M2828 => 52828
    case M3216 => 53216
    case M3225 => 53225
    case M3625 => 53625
    case M3838 => 53838
    case M4516 => 54516
    case M4520 => 54520
    case M4532 => 54532
    case M4564 => 54564
    case M5025 => 55025
    case M5050 => 55050
    case M5664 => 55664
    case M5728 => 55728
    case M5750 => 55750
    case M5764 => 55764
    case M6332 => 56332
    case M6432 => 56432
    case M6450 => 56450
    case M7450 => 57450
    case M8484 => 58484
    case M9210 => 59210
    case M100100 => 71001
    case M140127 => 71401
    case M203153 => 72031
  }

  lemma MetricNameKey(m: IECMetricCode)
    ensures NameKey(MetricDebugName(m)) == MetricKey(m)
  {
  }

  lemma MetricKeyInjective(a: IECMetricCode, b: IECMetricCode)
    requires MetricKey(a) == MetricKey(b)
    ensures a == b
  {
  }

  /** Distinct metric codes have distinct `Debug` names. */
  lemma MetricDebugNameInjective(a: IECMetricCode, b: IECMetricCode)
    requires MetricDebugName(a) == MetricDebugName(b)
    ensures a == b
  {
    MetricNameKey(a);
    MetricNameKey(b);
    MetricKeyInjective(a, b);
  }

  /** No two metric codes display alike, in either style. */
  lemma RenderMetricInjective(a: IECMetricCode, b: IECMetricCode, style: Style)
    ensures RenderMetric(a, style) == RenderMetric(b, style) <==> a == b
  {
    if RenderMetric(a, style) == RenderMetric(b, style) {
      var da, db := MetricDebugName(a), MetricDebugName(b);
      if style == Alternate {
        CancelSuffix(da[1..], db[1..], " Metric");
      }
      SameHeadAndTail(da, db);
      MetricDebugNameInjective(a, b);
    }
  }

  /** Display of an inch code: its `Debug` name without the leading `_`; the alternate style
      appends " Inch". */
  function RenderInch(e: EIAInchCode, style: Style): (s: string)
    ensures style == Verbose ==> "_" + s == InchDebugName(e)
    ensures style == Alternate ==> s == InchDebugName(e)[1..] + " Inch"
    ensures style == Verbose ==> |s| >= 1 && AllDigits(s)
  {
    var d := InchDebugName(e);
    if style == Alternate then d[1..] + " Inch" else d[1..]
  }

  /** The `NameKey` of each inch code's `Debug` name, a proof device for
      `InchDebugNameInjective`; `InchNameKey` checks it against the names. */
  function InchKey(e: EIAInchCode): nat {
    match e
    case I008004 => 70080
    case I009005 => 70090
    case I01005 => 60100
    case I015015 => 70150
    case I0201 => 50201
    case I0202 => 50202
    case I02404 => 60240
    case I0302 => 50302
    case I0303 => 50303
    case I0402 => 50402
    case I0504 => 50504
    case I0603 => 50603
    case I0805 => 50805
    case I1008 => 51008
    case I1111 => 51111
    case I1206 => 51206
    case I1210 => 51210
    case I1410 => 51410
    case I1515 => 51515
    case I1806 => 51806
    case I1808 => 51808
    case I1812 => 51812
    case I1825 => 51825
    case I2010 => 52010
    case I2020 => 52020
    case I2211 => 52211
    case I2220 => 52220
    case I2225 => 52225
    case I2512 => 52512
    case I2520 => 52520
    case I2920 => 52920
    case I3333 => 53333
    case I3640 => 53640
    case I4040 => 54040
    case I5550 => 55550
    case I8060 => 58060
  }

  lemma InchNameKey(e: EIAInchCode)
    ensures NameKey(InchDebugName(e)) == InchKey(e)
  {
  }

  lemma InchKeyInjective(a: EIAInchCode, b: EIAInchCode)
    requires InchKey(a) == InchKey(b)
    ensures a == b
  {
  }

  /** Distinct inch codes have distinct `Debug` names. */
  lemma InchDebugNameInjective(a: EIAInchCode, b: EIAInchCode)
    requires InchDebugName(a) == InchDebugName(b)
    ensures a == b
  {
    InchNameKey(a);
    InchNameKey(b);
    InchKeyInjective(a, b);
  }

  /** No two inch codes display alike, in either style. */
  lemma RenderInchInjective(a: EIAInchCode, b: EIAInchCode, style: Style)
    ensures RenderInch(a, style) == RenderInch(b, style) <==> a == b
  {
    if RenderInch(a, style) == RenderInch(b, style) {
      var da, db := InchDebugName(a), InchDebugName(b);
      if style == Alternate {
        CancelSuffix(da[1..], db[1..], " Inch");
      }
      SameHeadAndTail(da, db);
      InchDebugNameInjective(a, b);
    }
  }

  /** The capability each vendor's dimension-code enumeration provides (`SizeCode`):
      `toEia` projects a vendor code onto the EIA code, `toMfCode` is its partial inverse,
      defined exactly on the EIA codes the vendor makes. */
  ghost predicate IsSizeCode<T(!new)>(toEia: T -> EIAInchCode, toMfCode: EIAInchCode -> Option<T>) {
    && (forall d :: toMfCode(toEia(d)) == Some(d))
    && (forall e :: toMfCode(e).Some? ==> toEia(toMfCode(e).value) == e)
  }

  datatype RatedVoltage =
      DC_2V5 | DC_4V | DC_6V3 | DC_10V | DC_16V | DC_25V | DC_35V | DC_50V | DC_63V
    | DC_100V | DC_200V | DC_250V | DC_450V | DC_500V | DC_630V | DC_1kV | DC_2kV | DC_3kV
    | DC_3kV15 | AC_250V | CustomDC(dcVolts: nat) | CustomAC(acVolts: nat)

  /** Alternating-current ratings, told apart by variant rather than by the display table. */
  predicate IsAC(v: RatedVoltage) {
    v.AC_250V? || v.CustomAC?
  }

  /** The whole volts, tenths digit and DC flag that the display destructures a rating into. */
  datatype VoltageFields = VoltageFields(decimal: nat, fractional: nat, isDc: bool)

  function VoltageFieldsOf(v: RatedVoltage): (f: VoltageFields)
    ensures f.isDc <==> !IsAC(v)
    ensures f.fractional != 0 <==> v == DC_2V5 || v == DC_6V3
  {
    match v
    case DC_2V5 => VoltageFields(2, 5, true)
    case DC_4V => VoltageFields(4, 0, true)
    case DC_6V3 => VoltageFields(6, 3, true)
    case DC_10V => VoltageFields(10, 0, true)
    case DC_16V => VoltageFields(16, 0, true)
    case DC_25V => VoltageFields(25, 0, true)
    case DC_35V => VoltageFields(35, 0, true)
    case DC_50V => VoltageFields(50, 0, true)
    case DC_63V => VoltageFields(63, 0, true)
    case DC_100V => VoltageFields(100, 0, true)
    case DC_200V => VoltageFields(200, 0, true)
    case DC_250V => VoltageFields(250, 0, true)
    case DC_450V => VoltageFields(450, 0, true)
    case DC_500V => VoltageFields(500, 0, true)
    case DC_630V => VoltageFields(630, 0, true)
    case DC_1kV => VoltageFields(1000, 0, true)
    case DC_2kV => VoltageFields(2000, 0, true)
    case DC_3kV => VoltageFields(3000, 0, true)
    case DC_3kV15 => VoltageFields(3150, 0, true)
    case AC_250V => VoltageFields(250, 0, false)
    case CustomDC(dc) => VoltageFields(dc, 0, true)
    case CustomAC(ac) => VoltageFields(ac, 0, false)
  }

  /** Display of a rated voltage: "<n>V" or "<n>VAC" when there is no tenths digit (both
      styles); otherwise "<n>.<t>V", or "<n>V<t>" in the alternate style. */
  function RenderVoltage(v: RatedVoltage, style: Style): (s: string)
    ensures |s| >= 2 && IsDigit(s[0])
    ensures IsAC(v) <==> s[|s| - 1] == 'C'
    ensures !IsAC(v) && VoltageFieldsOf(v).fractional == 0 ==> s[|s| - 1] == 'V'
    ensures style == Verbose && VoltageFieldsOf(v).fractional != 0 ==> s[|s| - 1] == 'V'
    ensures style == Alternate && VoltageFieldsOf(v).fractional != 0 ==> IsDigit(s[|s| - 1])
  {
    RenderVoltageFields(VoltageFieldsOf(v), style)
  }

  function RenderVoltageFields(f: VoltageFields, style: Style): (s: string)
    ensures |s| >= 2 && IsDigit(s[0])
    ensures s[|s| - 1] == 'C' <==> f.fractional == 0 && !f.isDc
    ensures f.fractional == 0 && f.isDc ==> s[|s| - 1] == 'V'
    ensures style == Verbose && f.fractional != 0 ==> s[|s| - 1] == 'V'
    ensures style == Alternate && f.fractional != 0 ==> IsDigit(s[|s| - 1])
  {
    var rest :=
      if f.fractional == 0 then (if f.isDc then "V" else "VAC")
      else if style == Alternate then
        var tenths := FromNat(f.fractional);
        assert IsDigit(tenths[|tenths| - 1]);
        assert ("V" + tenths)[|tenths|] == tenths[|tenths| - 1];
        "V" + tenths
      else "." + FromNat(f.fractional) + "V";
    var s := FromNat(f.decimal) + rest;
    assert s[|s| - 1] == rest[|rest| - 1];
    s
  }

  /** A rating without a tenths digit renders as its whole volts and unit, in both styles. */
  lemma WholeVoltageRendering(v: RatedVoltage, style: Style)
    requires v != DC_2V5 && v != DC_6V3
    ensures RenderVoltage(v, style) == FromNat(VoltageFieldsOf(v).decimal) + (if IsAC(v) then "VAC" else "V")
  {
  }

  /** The two fractional ratings, in both styles. */
  lemma FractionalVoltageRendering()
    ensures RenderVoltage(DC_2V5, Verbose) == "2.5V" && RenderVoltage(DC_2V5, Alternate) == "2V5"
    ensures RenderVoltage(DC_6V3, Verbose) == "6.3V" && RenderVoltage(DC_6V3, Alternate) == "6V3"
  {
    assert FromNat(2) == "2" && FromNat(5) == "5" && FromNat(6) == "6" && FromNat(3) == "3";
  }

  /** The two styles agree on every rating except the two with a tenths digit. */
  lemma VoltageStylesAgree(v: RatedVoltage)
    ensures RenderVoltage(v, Verbose) == RenderVoltage(v, Alternate) <==> v != DC_2V5 && v != DC_6V3
  {
    if v == DC_2V5 || v == DC_6V3 {
      FractionalVoltageRendering();
    }
  }

  /** The standard 3.15kV rating and a custom 3150V DC rating render the same. */
  lemma Voltage3150Rendering(style: Style)
    ensures RenderVoltage(DC_3kV15, style) == RenderVoltage(CustomDC(3150), style) == "3150V"
  {
    assert VoltageFieldsOf(DC_3kV15) == VoltageFieldsOf(CustomDC(3150)) == VoltageFields(3150, 0, true);
    assert RenderVoltageFields(VoltageFields(3150, 0, true), style) == FromNat(3150) + "V";
    Text3150();
  }

  lemma Text3150()
    ensures FromNat(3150) == "3150"
  {
    FromNatStep(3, 1);
    FromNatStep(31, 5);
    FromNatStep(315, 0);
  }

  /** `Percent(b, a)` and `AttoFarads(b, a)` keep the source's field order. */
  datatype Tolerance =
      PM05 | PM1 | PM2 | P5 | M5 | PM5 | PM10 | PM20 | Percent(nat, nat)
    | PM0pF1 | PM0pF25 | PM0pF5 | PM1pF | AttoFarads(nat, nat)

  const PlusMinus: char := '\U{00B1}'

  /** Bands whose plus and minus widths are equal. */
  predicate Symmetric(t: Tolerance) {
    match t
    case P5 | M5 => false
    case Percent(b, a) => a == b
    case AttoFarads(b, a) => a == b
    case _ => true
  }

  /** Bands given as a percentage of the nominal value rather than in picofarads. */
  predicate Relative(t: Tolerance) {
    t.PM05? || t.PM1? || t.PM2? || t.P5? || t.M5? || t.PM5? || t.PM10? || t.PM20? || t.Percent?
  }

  /** The compact (alternate) display of a tolerance: a one-letter precision class, ultra
      (U), precise (P), standard (S) or coarse (C), or nothing for the other bands. */
  function ToleranceClass(t: Tolerance): (s: string)
    ensures s in {"U", "P", "S", "C", ""}
    ensures s == "" <==> t.P5? || t.M5? || t.Percent? || t.AttoFarads?
  {
    match t
    case PM05 => "U"
    case PM1 => "P"
    case PM2 => "P"
    case PM5 => "P"
    case PM10 => "S"
    case PM20 => "C"
    case PM0pF1 => "U"
    case PM0pF25 => "P"
    case PM0pF5 => "S"
    case PM1pF => "C"
    case _ => ""
  }

  /** The verbose display of a tolerance: the band with its sign and unit. */
  function ToleranceBand(t: Tolerance): (s: string)
    ensures |s| >= 3
    ensures s[0] == PlusMinus <==> Symmetric(t)
    ensures s[|s| - 1] == '%' <==> Relative(t)
    ensures s[|s| - 1] == 'F' <==> !Relative(t)
  {
    match t
    case PM05 => [PlusMinus] + "0.5%"
    case PM1 => [PlusMinus] + "1%"
    case PM2 => [PlusMinus] + "2%"
    case P5 => "+5%"
    case M5 => "-5%"
    case PM5 => [PlusMinus] + "5%"
    case PM10 => [PlusMinus] + "10%"
    case PM20 => [PlusMinus] + "20%"
    case Percent(b, a) => CustomBand(b, a, "%")
    case PM0pF1 => [PlusMinus] + "0.1pF"
    case PM0pF25 => [PlusMinus] + "0.25pF"
    case PM0pF5 => [PlusMinus] + "0.5pF"
    case PM1pF => [PlusMinus] + "1pF"
    case AttoFarads(b, a) => CustomBand(b, a, "pF")
  }

  /** A custom band `(b, a)` with the given unit: "±a" when both widths agree, otherwise
      "-a+b" (the second field follows the minus sign). */
  function CustomBand(b: nat, a: nat, unit: string): (s: string)
    requires |unit| >= 1
    ensures |s| >= 2 + |unit| && s[|s| - 1] == unit[|unit| - 1]
    ensures s[0] == PlusMinus <==> a == b
    ensures EndsWith(s, unit)
  {
    if a == b then
      var prefix := [PlusMinus] + FromNat(a);
      EndsWithPrefixed(prefix, unit, unit);
      prefix + unit
    else
      var prefix := "-" + FromNat(a) + "+" + FromNat(b);
      EndsWithPrefixed(prefix, unit, unit);
      prefix + unit
  }

  /** Display of a tolerance in either style. */
  function RenderTolerance(t: Tolerance, style: Style): (s: string)
    ensures style == Alternate ==> |s| <= 1
    ensures style == Verbose ==> |s| >= 3 && (s[0] == PlusMinus <==> Symmetric(t))
  {
    if style == Alternate then ToleranceClass(t) else ToleranceBand(t)
  }

  /** The compact precision classes. */
  lemma ToleranceClasses()
    ensures RenderTolerance(PM05, Alternate) == "U" && RenderTolerance(PM0pF1, Alternate) == "U"
    ensures RenderTolerance(PM1, Alternate) == "P" && RenderTolerance(PM2, Alternate) == "P"
    ensures RenderTolerance(PM5, Alternate) == "P" && RenderTolerance(PM0pF25, Alternate) == "P"
    ensures RenderTolerance(PM10, Alternate) == "S" && RenderTolerance(PM0pF5, Alternate) == "S"
    ensures RenderTolerance(PM20, Alternate) == "C" && RenderTolerance(PM1pF, Alternate) == "C"
  {
  }

  /** Custom bands: "±a" when both widths agree, otherwise "-a+b", where `a` is the second
      field; the absolute band prints its raw number with a "pF" unit. */
  lemma CustomBandRendering(b: nat, a: nat)
    ensures RenderTolerance(Percent(b, a), Verbose) ==
      if a == b then [PlusMinus] + FromNat(a) + "%" else "-" + FromNat(a) + "+" + FromNat(b) + "%"
    ensures RenderTolerance(AttoFarads(b, a), Verbose) ==
      if a == b then [PlusMinus] + FromNat(a) + "pF" else "-" + FromNat(a) + "+" + FromNat(b) + "pF"
  {
  }

  /** The narrowest absolute band renders its raw number as picofarads. */
  lemma AttoFaradBandRendering()
    ensures RenderTolerance(AttoFarads(100, 100), Verbose) == [PlusMinus] + "100pF"
  {
    FromNatStep(1, 0);
    FromNatStep(10, 0);
    assert FromNat(100) == "100";
  }

  /** A maximum height in millimetres: the whole part and the digits after the point, kept
      as the number those digits spell (`Height(0, 125)` is 0.125mm). */
  datatype Height = Height(decimal: nat, fractional: nat)

  /** Display of a height: "<d>mm", or "<d>.<f>mm" when the fractional field is not zero. */
  function RenderHeight(h: Height): (s: string)
    ensures EndsWith(s, "mm")
    ensures '.' in s <==> h.fractional != 0
  {
    FromNat(h.decimal) + HeightTail(h.fractional)
  }

  /** What follows the whole millimetres in a rendered height. */
  function HeightTail(f: nat): (s: string)
    ensures |s| >= 2 && !IsDigit(s[0]) && EndsWith(s, "mm")
    ensures '.' in s <==> f != 0
  {
    if f == 0 then "mm" else "." + FromNat(f) + "mm"
  }

  /** Distinct tails come from distinct fractional fields. */
  lemma HeightTailInjective(f: nat, g: nat)
    requires HeightTail(f) == HeightTail(g)
    ensures f == g
  {
    if f != 0 && g != 0 {
      var t := HeightTail(f);
      assert FromNat(f) == t[1..|t| - 2];
      assert FromNat(g) == t[1..|t| - 2];
      FromNatInjective(f, g);
    }
  }

  /** Distinct heights render distinctly. */
  lemma RenderHeightInjective(g: Height, h: Height)
    ensures RenderHeight(g) == RenderHeight(h) <==> g == h
  {
    if RenderHeight(g) == RenderHeight(h) {
      SplitAfterDigits(FromNat(g.decimal), HeightTail(g.fractional), FromNat(h.decimal), HeightTail(h.fractional));
      FromNatInjective(g.decimal, h.decimal);
      HeightTailInjective(g.fractional, h.fractional);
    }
  }

  lemma HeightRenderingExamples()
    ensures RenderHeight(Height(0, 125)) == "0.125mm"
    ensures RenderHeight(Height(0, 3)) == "0.3mm"
    ensures RenderHeight(Height(2, 0)) == "2mm"
  {
    assert FromNat(0) == "0" && FromNat(2) == "2" && FromNat(3) == "3";
    Text125();
    assert RenderHeight(Height(0, 125)) == FromNat(0) + "." + FromNat(125) + "mm";
  }

  lemma Text125()
    ensures FromNat(125) == "125"
  {
    FromNatStep(1, 2);
    FromNatStep(12, 5);
  }

  datatype Dielectric =
      SL | CH | CJ | UJ | CK | C0G | X8G | U2J | B | X5R | X6S | X6T | X7R | X7S | X7T | X7U
    | R | Y5V

  /** The derived `Debug` name of a dielectric class. */
  function DielectricName(d: Dielectric): (name: string)
    ensures 1 <= |name| <= 3
  {
    match d
    case SL => "SL"
    case CH => "CH"
    case CJ => "CJ"
    case UJ => "UJ"
    case CK => "CK"
    case C0G => "C0G"
    case X8G => "X8G"
    case U2J => "U2J"
    case B => "B"
    case X5R => "X5R"
    case X6S => "X6S"
    case X6T => "X6T"
    case X7R => "X7R"
    case X7S => "X7S"
    case X7T => "X7T"
    case X7U => "X7U"
    case R => "R"
    case Y5V => "Y5V"
  }
}

=== FILE: samsung.dfy ===
/** Samsung's series and case-size codes (src/parts/capacitors/samsung.rs). No Samsung part
    number parser exists; only the size-code capability is modelled. */
module Samsung {
  import opened Outcome
  import opened Parts

  datatype Series = CL

  /** Samsung's case-size codes, named after the two digits that select them. */
  datatype Dimensions =
      S02 | S03 | S05 | S10 | S21 | S31 | S32 | S42 | S43 | S55

  /** The EIA size a Samsung dimension code denotes. */
  function ToEia(d: Dimensions): (e: EIAInchCode)
  {
    match d
    case S02 => I01005
    case S03 => I0201
    case S05 => I0402
    case S10 => I0603
    case S21 => I0805
    case S31 => I1206
    case S32 => I1210
    case S42 => I1808
    case S43 => I1812
    case S55 => I2220
  }

  /** The Samsung dimension code for an EIA size, when Samsung makes that size. */
  function ToMfCode(e: EIAInchCode): (r: Option<Dimensions>)
    ensures r.Some? ==> ToEia(r.value) == e
  {
    match e
    case I01005 => Some(S02)
    case I0201 => Some(S03)
    case I0402 => Some(S05)
    case I0603 => Some(S10)
    case I0805 => Some(S21)
    case I1206 => Some(S31)
    case I1210 => Some(S32)
    case I1808 => Some(S42)
    case I1812 => Some(S43)
    case I2220 => Some(S55)
    case _ => None
  }

  /** Every Samsung size is found again from its EIA size. */
  lemma ToEiaRoundTrip(d: Dimensions)
    ensures ToMfCode(ToEia(d)) == Some(d)
  {
  }

  /** Distinct Samsung codes denote distinct EIA sizes. */
  lemma ToEiaInjective(a: Dimensions, b: Dimensions)
    ensures ToEia(a) == ToEia(b) <==> a == b
  {
    if ToEia(a) == ToEia(b) {
      ToEiaRoundTrip(a);
      ToEiaRoundTrip(b);
    }
  }

  /** The reverse lookup fails exactly on the EIA sizes Samsung does not make. */
  lemma ToMfCodeNone(e: EIAInchCode)
    ensures ToMfCode(e).None? <==> forall d :: ToEia(d) != e
  {
    if ToMfCode(e).None? {
      forall d ensures ToEia(d) != e {
        ToEiaRoundTrip(d);
      }
    }
  }

  /** Samsung's dimension codes provide the size-code capability. */
  lemma SamsungSizeCode()
    ensures IsSizeCode(ToEia, ToMfCode)
  {
    forall d ensures ToMfCode(ToEia(d)) == Some(d) {
      ToEiaRoundTrip(d);
    }
  }
}
